=== FILE: README.md ===
# homeline, modelled in Dafny

homeline is a small home-automation hub. Integrations talk to devices over
HTTP or streams and expose them on an MQTT bus. This project models the hub's
routing, state and lookup logic and proves properties about it:

- **Topic routes.** `Integration.route` turns a pattern such as
  `simplisafe/uid/<userId>/sid/<systemId>/cmd` into a `/+/` wildcard
  subscription and a matcher with named captures. `onMessage` runs the first
  route that matches. `routeCommand` and `onCommandError` parse a command and
  report failures on an error topic. `getCanonicalName` names the integration.
  These live in `topics.dfy` (pure rules) and `integration.dfy` (the
  `Integration` class and its route list).
- **Namespaced state.** The state is a document mapping namespace → key → value.
  It is updated by a shallow merge per namespace (`state_doc.dfy`). The file
  store (`store.dfy`) adds `~` expansion and a serialised copy on disk. The
  test store (`mock_store.dfy`) keeps only the document.
- **Broker.** `broker.dfy` holds the subscriber list, with exact-topic
  fan-out, resubscription on connect, the `init` guard and the shutdown
  message.
- **Tables and classifiers.**
  - `simplisafe_event.dfy` holds the SimpliSafe event-CID table and
    `makeEvent`.
  - `luxor.dfy` holds the Luxor controller classification, its command route
    and its commands.
  - `luxor_api.dfy` holds the Luxor status-code table and the HTTP error
    wrapping.
- **Loading and errors.**
  - `loader.dfy` holds the loader's module-path choice, `getIntegration`'s
    error wrapping, and `loadAll`'s order-preserving filter.
  - `errors.dfy` holds `ExtendedError` and `RethrownError`'s stack splicing.

Effects are modelled as logs:

- MQTT subscribe and publish calls are appended to `mqtt` or `client`.
- Route callbacks that ran are appended to `calls`.
- Luxor API requests are appended to `apiCalls`.
- Store file writes are appended to `writes`.

Foreign functions enter as parameters. These are JSON parsing and
serialisation, `path.resolve`, `require`, the integration constructors, and
the stack text that `Error.captureStackTrace` records when an error is built.

Shared definitions:

- `wrappers.dfy` has `Option` and `Result`.
- `json_value.dfy` has JSON values.
- `text.dfy` has ASCII case folding, split and join, and number printing.

Three behaviours of the code are easy to misread:

- **Error topic without an id.** `onCommandError` publishes to `topic + "//error"`
  (two slashes) when the payload has no id (`src/integrations/index.ts:214`).
- **How routes match.** Matching is unanchored and case-insensitive, because the
  regex is built with flag `i` and has no `^` or `$`.
- **State key.** `setState`/`getState` key the store by the raw class name
  (`LuxorIntegration`), not by the canonical name (`luxor`).

## Model

| member | source | states |
|---|---|---|
| Topics.SubscriptionTopic | src/integrations/index.ts:173-178 | the subscription topic is never longer than the pattern; each `/<name>/` becomes `/+/`, left to right and without overlap (see the lemmas below) |
| Topics.Compile | src/integrations/index.ts:175-177 | the compiled matcher is empty exactly when the pattern is, and has no more tokens than the pattern has characters (its shape is stated by the three lemmas below) |
| Topics.CompileWellFormed | src/integrations/index.ts:173-177 | the compiled matcher is well formed: every capture is followed by a literal `/` |
| Topics.CompileLitsFromPattern | src/integrations/index.ts:173-177 | every literal of the compiled matcher is a character of the pattern |
| Topics.CompileParamNamesValid | src/integrations/index.ts:173-176 | capture names are non-empty and contain no `>` |
| Topics.SubscriptionIsRenderedRoute | src/integrations/index.ts:173-178 | the subscription topic is exactly the compiled matcher with every capture written as `+`: the two outputs of `route` agree |
| Topics.SubscriptionOfPlainPattern | src/integrations/index.ts:178 | a pattern with no `/<name>/` occurrence subscribes to itself and compiles to its own literal characters |
| Topics.RewriteSkipsPlainText | src/integrations/index.ts:173-178 | text with no `/<` is copied through unchanged by both the rewrite and the compiler |
| Topics.RewriteReplacesParam | src/integrations/index.ts:173-178 | a leading `/<name>/` becomes `/+/` in the topic and one named capture between two slashes in the matcher |
| Topics.RewritePlainThenParam | src/integrations/index.ts:173-178 | plain text followed by one `/<name>/` rewrites piecewise |
| Topics.CompileOneParam | src/integrations/index.ts:173-178 | `head/<name>/tail` over plain parts subscribes to `head/+/tail` and compiles to one capture named `name` |
| Topics.CompileTwoParams | src/integrations/index.ts:173-178 | `head/<a>/mid/<b>/tail` over plain parts subscribes to `head/+/mid/+/tail` and compiles to two captures |
| Topics.SimpliSafeCommandRoute | src/integrations/index.ts:173-178 | `simplisafe/uid/<userId>/sid/<systemId>/cmd` subscribes to `simplisafe/uid/+/sid/+/cmd` |
| Topics.SimpliSafePatternText | src/integrations/index.ts:173-178 | the two-parameter pattern used above is the SimpliSafe command route's text |
| Topics.TrailingParamIsText | src/integrations/index.ts:173 | a trailing `/<name>` (no slash after it) is left as literal text by both outputs |
| Topics.TrailingParamAlone | src/integrations/index.ts:173 | `/<name>` alone, with no slash after it, is left as literal text by both outputs |
| Topics.ParamNamesAreParams | src/integrations/index.ts:176 | the capture names the matcher reports are exactly the names of its capture tokens |
| Topics.ParamNamesConcat | src/integrations/index.ts:176 | capture names of a concatenated matcher are the names of its parts, in order |
| Topics.RenderConcat | src/integrations/index.ts:178 | rendering a concatenated matcher renders its parts in order |
| Topics.RenderLits | src/integrations/index.ts:173-178 | literal text renders to itself and has no captures |
| Topics.LitsConcat | src/integrations/index.ts:173-177 | literal tokens of concatenated text are the concatenation of each part's tokens |
| Topics.RunLen | src/integrations/index.ts:173-176 | the length of the leading run of characters other than a stop character: what `[^\>]+` consumes in a parameter name and `[^\/]+` in a capture |
| Topics.Captures | src/integrations/index.ts:176-182 | a match at the start of the string yields one non-empty, slash-free capture per group name |
| Topics.CapturesSound | src/integrations/index.ts:176-182 | whatever `Captures` returns fits the string as the regex describes (case-insensitive literals, `[^\/]+` captures) |
| Topics.CapturesComplete | src/integrations/index.ts:176-182 | every way a well-formed matcher fits the start of a string is the one `Captures` finds, so the greedy scan loses no match |
| Topics.FitsExtend | src/integrations/index.ts:182 | a fit at the start of a string survives anything appended (no `$` anchor) |
| Topics.CapturesIgnoreSuffix | src/integrations/index.ts:233 | appending text to a matched topic does not change the captures |
| Topics.FindMatch | src/integrations/index.ts:233 | a match lies at or after the starting offset, with one capture per group name |
| Topics.FindMatchSpec | src/integrations/index.ts:233 | `topic.match(regex)` finds the leftmost offset where the matcher fits; none before it, or no fit at all |
| Topics.Match | src/integrations/index.ts:233 | `topic.match(regex)`: the matcher fits at the reported offset with the reported captures and at no earlier offset; no result means it fits at no offset |
| Topics.MatchIgnoresSuffix | src/integrations/index.ts:233 | a topic that matches still matches, no later, with anything appended |
| Topics.MatchAtStart | src/integrations/index.ts:233 | a fit at offset 0 is the match |
| Topics.Bind | src/integrations/index.ts:244 | `match.groups` has exactly the group names as keys, each mapped to its capture when the names are distinct |
| Topics.RouteParams | src/integrations/index.ts:233-244 | there are parameters exactly when the topic matches; their keys are the group names, and with distinct names each maps to its own capture |
| Topics.ValidGroupName | src/integrations/index.ts:176-182 | a name the regex constructor accepts as a group name is non-empty, does not start with a digit and contains no `$`, `/` or `>` |
| Topics.RegexAccepts | src/integrations/index.ts:176-182 | the regex constructor accepts the compiled route exactly when every capture token's name is a valid group name and no name repeats |
| Topics.MatchTwoParams | src/integrations/index.ts:233-245 | a two-parameter route matches `head/c1/mid/c2/tail` at offset 0 and binds `{a: c1, b: c2}` |
| Topics.SimpliSafeCommandMatch | src/integrations/index.ts:233-245 | `simplisafe/uid/12345/sid/54321/cmd` binds `userId` to `12345` and `systemId` to `54321` |
| Topics.SimpliSafeTopicText | src/integrations/index.ts:233 | the topic used above is `simplisafe/uid/12345/sid/54321/cmd` |
| Topics.InstanceMatches | src/integrations/index.ts:176-233 | filling each capture of a well-formed matcher with a non-empty slash-free value gives a topic the matcher matches at 0 with exactly those values |
| Topics.FitsOwnInstance | src/integrations/index.ts:176-182 | the matcher fits the topic obtained by filling its captures |
| Topics.SubscriptionDelivers | src/integrations/index.ts:178-187 | the subscription `route` makes delivers every topic its matcher is built to accept |
| Topics.FilterKeepsLevels | src/integrations/index.ts:178 | an MQTT `+` filter only delivers topics with as many levels as the filter |
| Topics.ErrorTopicEscapesFilter | src/integrations/index.ts:214 | a route's error topic is never delivered by the filter that delivered the command, so errors do not loop back |
| Topics.EmptyLevelDeliveredButUnmatched | src/integrations/index.ts:176-178 | an empty level (`//`) is delivered by the `+` filter but rejected by the `[^\/]+` capture |
| Topics.ErrorTopic | src/integrations/index.ts:214 | `topic/cid/<id>/error` when the payload has a non-empty id, `topic//error` otherwise; always extends the command's topic |
| Topics.ErrorTopicIdentifiesCommand | src/integrations/index.ts:214 | two error topics for one command topic are equal exactly when the commands carry the same id (or both none) |
| Topics.DropSuffix | src/integrations/index.ts:165 | `replace(/Integration$/, "")`: removes one trailing occurrence, otherwise leaves the string alone |
| Text.ToLower | src/integrations/index.ts:165 | `toLowerCase()`: same length, each character folded to lower case (ASCII) |
| Topics.CanonicalName | src/integrations/index.ts:164-166 | the canonical name has no upper-case letters and is no longer than the class name |
| Topics.CanonicalNameOfIntegrationClass | src/integrations/index.ts:164-166 | `<Base>Integration` names itself `lowercase(<Base>)` |
| Topics.CanonicalNameIdempotent | src/integrations/index.ts:164-166 | canonicalising twice changes nothing |
| Topics.LuxorCanonicalName | src/integrations/index.ts:164-166 | `LuxorIntegration` is called `luxor` |
| Integrations.StateKeyIsNotCanonicalName | src/integrations/index.ts:290-296 | a class name with an upper-case letter is not its canonical name, so state is not keyed by the logger name |
| Integrations.FirstRoute | src/integrations/index.ts:231-237 | the route `onMessage` picks matches the topic and no earlier route does; when none is picked, no route matches |
| Integrations.FirstRouteFrom | src/integrations/index.ts:231-237 | the chosen route matches and no earlier route does; no choice means no route matches |
| Integrations.FirstRouteIs | src/integrations/index.ts:231-237 | the first matching route, in registration order, is the one chosen |
| Integrations.FirstRouteIsNone | src/integrations/index.ts:231-255 | when no route matches, none is chosen |
| Integrations.EntityTopic | src/integrations/index.ts:275-280 | `<topicPrefix>/entity/<id>`: starts with the prefix and `/entity/`, and the rest is the entity id |
| Integrations.EntityTopicInjective | src/integrations/index.ts:275-280 | under one prefix, two entities share a topic exactly when they share an id |
| Integrations.Info | src/integrations/index.ts:241-245 | the route info carries the route, the topic and one parameter per capture name |
| Integrations.Dispatch | src/integrations/index.ts:190-217 | one callback at most; a message route gets the raw message; an unparsable command reaches no callback and publishes `undefined` to the no-id error topic; a parsed command's callback throws exactly when the payload is published to its error topic |
| Integrations.DispatchPublishesOnlyErrors | src/integrations/index.ts:199-216 | the only thing a route dispatch publishes is a command's error report |
| Integrations.Integration.constructor | src/integrations/index.ts:104-119 | the integration starts with no routes, no MQTT calls, and its canonical name |
| Integrations.Integration.Subscribe | src/integrations/index.ts:265-268 | appends one subscribe call and nothing else |
| Integrations.Integration.Publish | src/integrations/index.ts:270-273 | appends one publish call and nothing else |
| Integrations.Integration.PublishEntity | src/integrations/index.ts:270-280 | appends one publish to the entity topic whose payload is the entity's JSON text serialised a second time, as a JSON string; routes and callbacks are unchanged |
| Integrations.Integration.AddRoute | src/integrations/index.ts:172-188 | succeeds exactly when the regex constructor accepts the group names; then appends one route at the end and subscribes to its topic; on failure nothing changes |
| Integrations.Integration.RouteMessages | src/integrations/index.ts:172-188 | `route`: appends one message route and subscribes to its topic |
| Integrations.Integration.RouteCommand | src/integrations/index.ts:190-203 | `routeCommand`: appends one command route, whose handler is the parse-and-report wrapper, and subscribes |
| Integrations.Integration.OnCommandError | src/integrations/index.ts:205-217 | publishes the payload, or `undefined`, to the error topic |
| Integrations.Integration.RunCallback | src/integrations/index.ts:193-201 | runs a route's handler with the effects `Dispatch` specifies |
| Integrations.Integration.OnMessage | src/integrations/index.ts:220-258 | picks the first matching route, runs only its handler (even if it throws) and leaves the routes unchanged; without a match nothing happens |
| Integrations.Integration.SetState | src/integrations/index.ts:290-292 | merges into the namespace named after the raw class name, and writes the document once |
| Integrations.Integration.GetState | src/integrations/index.ts:294-296 | returns the namespace named after the raw class name |
| StateDoc.Lookup | src/store.ts:82-84 | a namespace's map, or `{}` when it was never written |
| StateDoc.Merge | src/store.ts:76-78 | every key of the update takes its new value; other keys keep theirs; no key is lost |
| StateDoc.SetState | src/store.ts:74-78 | the namespace (created if absent) becomes the merge; every other namespace is unchanged |
| StateDoc.MergeTwice | src/testutils/store.ts:9-14 | two merges are one merge of the two updates, the later winning on shared keys |
| StateDoc.SetStateTwice | src/testutils/store.ts:9-14 | two writes to a namespace equal one write of their union, and the namespace keeps every key of both |
| FileStore.ResolvePath | src/store.ts:13-25 | empty stays empty; in `~` and `~/…` the `~` is replaced by the home directory read as a replacement pattern; `~alias/…` and other paths are unchanged |
| FileStore.Substitute | src/store.ts:21 | the replacement-pattern expansion of `replace`: an empty replacement inserts nothing, and one that does not start with `$` keeps its first character first |
| FileStore.SubstitutePatterns | src/store.ts:21 | for every replacement: a leading `$$` inserts `$`, `$&` the match, `` $` `` the text before it, `$'` the text after it; a `$` before any other character and every other character are copied; the rest is substituted in turn |
| FileStore.SubstituteLiteral | src/store.ts:21 | a replacement without `$` is inserted literally |
| FileStore.ResolvePathLiteralHome | src/store.ts:20-22 | with a home directory free of `$`, `~` and `~/…` become the home directory followed by the rest of the path |
| FileStore.HomeWithMatchPattern | src/store.ts:20-22 | a home directory `/h/$&` turns `~` into `/h/~`: the `$&` is expanded to the matched `~` |
| FileStore.ResolvePathIdempotent | src/store.ts:13-25 | resolving a resolved path changes nothing (when the home directory starts with neither `~` nor `$`) |
| FileStore.Loaded | src/store.ts:62-67 | no file keeps the current state; otherwise the state is the file's parse, and a parse failure is an error |
| FileStore.SaveThenLoad | src/store.ts:62-72 | with a round-tripping serialiser, loading what was saved restores the document |
| FileStore.Store.constructor | src/store.ts:33-45 | the store path is the resolved given path, or the resolved `~/.cache/homeline.json` when none is given; the state starts empty |
| FileStore.Store.Init | src/store.ts:47-60 | an existing but unwritable directory fails with `No write access to <path>`; otherwise the state is loaded |
| FileStore.Store.LoadState | src/store.ts:62-67 | the state becomes what `Loaded` gives; a failure leaves it alone |
| FileStore.Store.SaveState | src/store.ts:69-72 | the file holds the serialised document; one write is logged |
| FileStore.Store.SetState | src/store.ts:74-80 | the document becomes `StateDoc.SetState` of the old one, and exactly one write of the merged document follows |
| FileStore.Store.GetState | src/store.ts:82-84 | the namespace's map, or `{}` |
| MockStores.MockStore.constructor | src/testutils/store.ts:4 | the mock store starts empty |
| MockStores.MockStore.SetState | src/testutils/store.ts:9-14 | the same merge as the file store, with no file |
| MockStores.MockStore.GetState | src/testutils/store.ts:16-18 | the namespace's map, or `{}` for an unknown namespace |
| MockStores.TokenSurvivesLaterWrite | src/testutils/store.ts:9-18 | writing `{token}` and then `{userId}` to the SimpliSafe namespace leaves both keys |
| Brokers.Topics | src/broker.ts:53 | the subscribers' topics, in list order |
| Brokers.Dedup | src/broker.ts:53 | `new Set(topics)` in insertion order: no longer than the list, and a non-empty list keeps its first topic first |
| Brokers.DedupSpec | src/broker.ts:53 | `new Set(topics)`: no topic twice and every topic kept |
| Brokers.DedupPrefix | src/broker.ts:53 | the distinct topics of a prefix of the list come first, in the same order |
| Brokers.Receivers | src/broker.ts:58-63 | a message reaches at most one callback per subscription |
| Brokers.ReceiversExact | src/broker.ts:58-63 | a callback is called for a topic exactly when it is subscribed to that exact topic (no wildcards) |
| Brokers.UpToFirstThrow | src/broker.ts:60-62 | the callbacks `forEach` reaches: never more than the receivers |
| Brokers.UpToFirstThrowPrefix | src/broker.ts:60-62 | the callbacks reached are a prefix of the receivers, and none but the last throws |
| Brokers.UpToFirstThrowEnds | src/broker.ts:60-62 | the last callback reached throws exactly when some receiver throws |
| Brokers.UpToFirstThrowWhole | src/broker.ts:60-62 | when no reached callback throws, every receiver is reached |
| Brokers.UpToFirstThrowStops | src/broker.ts:60-62 | callbacks after the first that throws are never reached |
| Brokers.ReceiversConcat | src/broker.ts:58-63 | fan-out follows list order |
| Brokers.Remove | src/broker.ts:96-100 | removes exactly the entries equal in topic and callback |
| Brokers.RemoveConcat | src/broker.ts:96-100 | removal keeps the remaining entries in their original order |
| Brokers.RemoveAbsent | src/broker.ts:96-100 | unsubscribing a pair that is not there changes nothing |
| Brokers.SubscribeAll | src/broker.ts:54 | one subscribe call per topic, in order |
| Brokers.SubscribeAllSnoc | src/broker.ts:54 | subscribing one more topic appends one call |
| Brokers.ConnectSubscribesOnce | src/broker.ts:53-54 | on connect, a topic is subscribed exactly when some subscriber has it, and no topic is subscribed twice |
| Brokers.Broker.constructor | src/broker.ts:21-24 | the host is the given one, or `localhost:1833` when none is given; no client and no subscribers at first |
| Brokers.Broker.Init | src/broker.ts:26-35 | connects to `mqtt://<host>` once; a second call changes nothing |
| Brokers.Broker.Subscribe | src/broker.ts:92-94 | appends the pair at the end, keeping duplicates |
| Brokers.Broker.Unsubscribe | src/broker.ts:96-100 | the list becomes `Remove` of the old list |
| Brokers.Broker.OnMessage | src/broker.ts:58-63 | calls, in list order, the callbacks subscribed to the incoming topic, stopping after the first one that throws; it reports a throw exactly when some subscribed callback throws |
| Brokers.Broker.OnConnect | src/broker.ts:51-56 | subscribes each distinct topic once, then publishes `homeline/connected` = `true` |
| Brokers.Broker.Publish | src/broker.ts:102-105 | publishes through the client, or fails with a `TypeError` when there is none |
| Brokers.Broker.OnShutdown | src/broker.ts:65-80 | with `cleanup` and a client, publishes `homeline/connected` = `false`; otherwise nothing |
| SimpliSafeEvents.Ordinal | src/integrations/simplisafe/event.ts:1-30 | the enum's numeric values are 0 to 27, and only `alarm_canceled` is 0 |
| SimpliSafeEvents.TypeOf | src/integrations/simplisafe/event.ts:32-71 | the table lookup: a type exactly for the listed CIDs |
| SimpliSafeEvents.TableDomain | src/integrations/simplisafe/event.ts:32-71 | the table's domain is exactly the 36 listed CIDs |
| SimpliSafeEvents.TableAscending | src/integrations/simplisafe/event.ts:32-71 | the listed CIDs strictly ascend, so none is listed twice |
| SimpliSafeEvents.AlarmCidsShareType | src/integrations/simplisafe/event.ts:35-41 | the seven alarm CIDs share `alarm_triggered` |
| SimpliSafeEvents.ArmedCidsShareTypes | src/integrations/simplisafe/event.ts:61-64 | 3481/3487 share `armed_away`; 3441/3491 share `armed_home` |
| SimpliSafeEvents.OnlyAlarmCanceledIsZero | src/integrations/simplisafe/event.ts:47 | CID 1406 is the only CID that maps to the enum's zero value |
| SimpliSafeEvents.MakeEventAsWritten | src/integrations/simplisafe/event.ts:99-109 | as written: succeeds exactly for listed CIDs whose type is non-zero, keeping every raw field; otherwise `Unknown eventCid: <cid>` |
| SimpliSafeEvents.MakeEvent | src/integrations/simplisafe/event.ts:99-109 | as intended: succeeds exactly for listed CIDs, keeping every raw field and adding the mapped type; otherwise `Unknown eventCid: <cid>` |
| SimpliSafeEvents.AlarmCanceledIsRejected | src/integrations/simplisafe/event.ts:101-103 | CID 1406 throws `Unknown eventCid: 1406` as written, but yields `alarm_canceled` as intended |
| SimpliSafeEvents.MakeEventAgreesElsewhere | src/integrations/simplisafe/event.ts:99-109 | for every other CID the written and the intended `makeEvent` agree |
| SimpliSafeEvents.RawEventTypeKept | src/integrations/simplisafe/event.ts:105-108 | the raw `eventType` string and CID survive next to the new `type` |
| Luxor.Ordinal | src/integrations/luxor/index.ts:10-15 | controller types number 0 to 3 |
| Luxor.OrdinalInjective | src/integrations/luxor/index.ts:10-15 | distinct controller types are stored as distinct numbers |
| Luxor.ControllerTypeFromName | src/integrations/luxor/index.ts:17-27 | zd exactly for names starting `luxor`, zdc for `lxzdc`, zdtwo for `lxtwo` (case-sensitive); anything else is unknown |
| Luxor.ShortNamesAreUnknown | src/integrations/luxor/index.ts:17-27 | names shorter than five characters are `unknown` |
| Luxor.ClassifiedByPrefix | src/integrations/luxor/index.ts:17-27 | only the first five characters decide the type |
| Luxor.ClassifiesKnownPrefixes | src/integrations/luxor/index.ts:17-27 | `luxor…` is zd, `lxzdc…` zdc, `lxtwo…` zdtwo; `LUXOR…` is unknown (case-sensitive) |
| Luxor.SystemCommandOutcome | src/integrations/luxor/index.ts:52-63 | `extinguish_all` and `illuminate_all` each make their one request; any other name is `UnknownCommand(name)`; a known command without a client throws |
| Luxor.CommandPatternText | src/integrations/luxor/index.ts:47 | the command route's pattern is `luxor/cid/<controllerId>/cmd` |
| Luxor.CommandRouteTopic | src/integrations/luxor/index.ts:46-49 | the command route subscribes to `luxor/cid/+/cmd` and captures `controllerId` |
| Luxor.ControllerIdIsGroupName | src/integrations/luxor/index.ts:47 | `controllerId` is a valid regex group name |
| Luxor.CommandRouteAccepted | src/integrations/luxor/index.ts:46-49 | registering the command route succeeds |
| Luxor.CommandReportsErrors | src/integrations/luxor/index.ts:52-63 | a Luxor command publishes an error report exactly when it does not parse or its name is not a known command |
| Luxor.LuxorIntegration.constructor | src/integrations/luxor/index.ts:29-32 | the integration's class name is `LuxorIntegration`, and there is no client and no request yet |
| Luxor.LuxorIntegration.Init | src/integrations/luxor/index.ts:34-50 | creates the client and asks for the controller name; on an answer, stores `controllerType` under the class name, writes the state file exactly once, and registers the one command route; on a failure the state, the file, the routes and the MQTT log are unchanged |
| Luxor.LuxorIntegration.OnSystemCommand | src/integrations/luxor/index.ts:52-63 | exactly one request for a known command, none and an `UnknownCommand` error otherwise |
| LuxorApi.GetStatus | src/integrations/luxor/api.ts:24-55 | codes outside the 13 listed give `Unknown status` |
| LuxorApi.StatusMessagesDistinct | src/integrations/luxor/api.ts:24-51 | the 13 listed codes have pairwise distinct messages, none of them `Unknown status` |
| LuxorApi.HasResponseData | src/integrations/luxor/api.ts:81 | `err.response && err.response.data`: a response whose data is present and not `null`, `false`, `0` or `""` |
| LuxorApi.DataMessage | src/integrations/luxor/api.ts:83 | `${data.message}`: a string message prints as itself; an absent one as `undefined` |
| LuxorApi.HttpMessage | src/integrations/luxor/api.ts:83 | starts with `HTTP <status>: ` and ends with the data's message |
| LuxorApi.RequestError | src/integrations/luxor/api.ts:80-88 | an error with response data becomes `LuxorApiError("HTTP <status>: <message>")` wrapping it; any other error is rethrown unchanged |
| LuxorApi.WrappedMessageNamesStatus | src/integrations/luxor/api.ts:83 | the wrapped message starts with `HTTP <status>: ` |
| Loader.ModulePath | src/integrations/loader.ts:28-38 | `/…` is used as is; `./…` is resolved against the cwd; `homeline/integrations…` is the loader's directory plus the name minus 22 characters; anything else is used as is; checked in that order |
| Loader.BundledIntegrationPath | src/integrations/loader.ts:34-35 | `homeline/integrations/<x>` loads `<dir>/<x>` |
| Loader.LoadFailure | src/integrations/loader.ts:40-48 | a thrown, falsy or non-function module is the matching error; a function export is no error |
| Loader.GetIntegration | src/integrations/loader.ts:25-55 | returns the exported class exactly when it is a function; otherwise an `IntegrationLoadError` naming the module and its path and wrapping the cause |
| Loader.OptionsFor | src/integrations/loader.ts:66-70 | the options with `id` overridden by the configuration's id, everything else kept |
| Loader.LoadOne | src/integrations/loader.ts:62-76 | a configuration yields its integration, built from the overridden options and its config, exactly when loading and construction both succeed |
| Loader.LoadAll | src/integrations/loader.ts:57-78 | never returns more integrations than configurations |
| Loader.LoadAllConcat | src/integrations/loader.ts:61-77 | loading preserves configuration order |
| Loader.LoadAllKeepsEvery | src/integrations/loader.ts:61-77 | when nothing fails, the i-th integration is the i-th configuration's |
| Loader.LoadAllDropsFailures | src/integrations/loader.ts:73-77 | failed configurations are dropped |
| Loader.LoadAllFromConfigs | src/integrations/loader.ts:61-77 | every loaded integration comes from some configuration |
| Errors.ExtendedError | src/utils/errors.ts:2-13 | `name` is the constructor's name and `message` the given message |
| Errors.MessageLines | src/utils/errors.ts:22 | the number of `\n` in the message plus one |
| Errors.RethrownError | src/utils/errors.ts:15-29 | a missing error throws `RethrownError requires a message and error`; otherwise `original` is the error and the stack ends with `\n` and the original's stack |
| Errors.RethrownStackLines | src/utils/errors.ts:22-28 | the stack's lines are the first `messageLines + 1` lines of the new stack followed by the original stack's lines |
| Errors.RethrownKeepsHeader | src/utils/errors.ts:22-28 | when the captured stack starts with the V8 header `<name>: <message>`, the spliced stack still starts with that whole header, however many lines the message spans |
| Errors.RethrownKeepsShortStack | src/utils/errors.ts:23-28 | a short enough new stack is kept whole, followed by `\n` and the original stack |
| Text.SplitJoin | src/utils/errors.ts:24-26 | splitting joined lines gives back the lines |
| Text.JoinSplit | src/utils/errors.ts:24-26 | joining split lines gives back the text |
| Text.NatToString | src/integrations/simplisafe/event.ts:102 | decimal digits without a leading zero, whose value is the number |
| Text.IntToString | src/integrations/simplisafe/event.ts:102 | `${n}` prints a sign exactly for negative numbers, followed by digits whose value is the number's magnitude |
| Text.IntToStringInjective | src/integrations/simplisafe/event.ts:102 | two numbers print the same exactly when they are equal, so `Unknown eventCid: <cid>` names the CID |

## Left out

- The MQTT client: `mqtt.connect` options, the last will, the random client id, and the `error`/`message`/`close` event wiring. Subscribe and publish are appended to a call log.
- Sentry transactions and all pino logging. They are side effects with no logic.
- `JSON.parse` and `JSON.stringify`. The store takes them as `serialize` and `parse` functions, and `parseCommand` is a `parse` returning `None` on failure.
- `parseCommand` does not check the payload's shape. The model assumes that a parsed payload is a command.
- The file system (`existsSync`, `mkdirSync`, `accessSync`, `readFileSync`, `writeFileSync`) and `os.homedir`.
  - They are inputs: whether the directory exists, whether it is writable, and the file's contents.
  - The written file is the `file` field.
  - `path.dirname` and directory creation are not modelled.
- `require`, `path.resolve`, `process.cwd()` and `__dirname` in the loader, and the integration constructors. They are parameters.
- JavaScript regular expressions in general. The matcher implements only the compiled route shape.
  - Literal pattern text is assumed to hold no regex metacharacters, since only parameter names are escaped.
  - Case folding and group names are ASCII only. This covers the case-insensitive match and the `toLowerCase()` of `getCanonicalName` (`Text.ToLower`, `Topics.CanonicalName`).
- MQTT `#` filters. The broker fans out on exact topic equality, and route subscriptions use only `+`.
- Integration.getLastWill, init, destroy, log and error. They only return constants or log. `publishEntity` is modelled (`Integrations.Integration.PublishEntity`), with the entity given as its JSON text.
- The integration manager, the echo integration, the CLI, the web UI and the socket.io stream.
- The HTTP clients, apart from Luxor's status table and its error wrapping.
- Process signal handlers and `process.exit` in the broker.
- JavaScript numbers are modelled as integers.
  - Event CIDs and other fields are integers.
  - `${n}` is printed only for integers.
- FileStore.Loaded: the state file is assumed to hold an object whose values are objects. Other JSON that `JSON.parse` accepts is not modelled: `null` (then `setState` and `getState` throw a TypeError), arrays, and primitive namespace values (a falsy one is reset to `{}` by `setState` and read as `{}` by `getState`; a truthy one silently drops the assignment or throws).
- FileStore.ResolvePathIdempotent: holds only when the home directory starts with neither `~` nor `$`. A home directory beginning `$&` expands to the matched `~`, so the resolved path starts with `~` again and resolving it a second time changes it (`FileStore.HomeWithMatchPattern`).
- Integrations.Integration.GetState: returns the namespace, as the test store does.
  - `src/store.ts`'s `getState` instead hands the namespace to a callback, which this call does not pass.
  - The `IStore` interface the integration is typed against is not part of this model.
- Luxor.LuxorIntegration.OnSystemCommand: the requests are not awaited, so an HTTP failure of `extinguishAll`/`illuminateAll` never reaches `onCommandError`. The model records the request and treats the command as succeeded.
- Errors.ExtendedError: the stack `Error.captureStackTrace` records is a parameter. Its V8 format is not modelled; `Errors.RethrownKeepsHeader` assumes only that it starts with `<name>: <message>`.
- Luxor.LuxorIntegration.Init: a failed controller-name request is an error result. The HTTP request itself and the response's other fields are not modelled.
- Integrations.Integration.OnMessage: effects of asynchronous callbacks that finish after `onMessage` returns are not ordered against later messages.

## Findings

| source | as written | input that shows it | evidently intended | confidence | as-written member | corrected member |
|---|---|---|---|---|---|---|
| src/integrations/simplisafe/event.ts:101 | `if (!type)` treats the enum value 0 (`alarm_canceled`) as missing | a raw event with `eventCid` 1406 throws `Unknown eventCid: 1406` (`SimpliSafeEvents.AlarmCanceledIsRejected`) | throw only when the CID is not in the table (`type === undefined`), so 1406 yields `alarm_canceled` | high (not executed) | SimpliSafeEvents.MakeEventAsWritten | SimpliSafeEvents.MakeEvent |

=== FILE: broker.dfy ===
/**
 * src/broker.ts: the hub's own MQTT connection and its subscriber table.
 * Callbacks are opaque ids; the MQTT client is a log of the calls made on
 * it. The connect, message and shutdown handlers `init` installs are methods
 * the environment calls once the client exists.
 */
module Brokers {
  import opened Wrappers

  /** A message callback, by identity. */
  type CallbackId = nat

  /** `[topic, callback]`. */
  datatype Subscription = Subscription(topic: string, callback: CallbackId)

  /** A call made on the MQTT client. */
  datatype ClientCall = Connect(url: string) | SubscribeCall(topic: string) | PublishCall(topic: string, message: string)

  /** The host `new Broker()` connects to when none is given. */
  const DefaultHost := "localhost:1833"
  const ConnectedTopic := "homeline/connected"

  /** The topics of a subscriber list, in list order. */
  function Topics(subs: seq<Subscription>): (ts: seq<string>)
    ensures |ts| == |subs|
    ensures forall i :: 0 <= i < |subs| ==> ts[i] == subs[i].topic
  {
    if subs == [] then [] else Topics(subs[..|subs| - 1]) + [subs[|subs| - 1].topic]
  }

  predicate Distinct(xs: seq<string>) {
    forall i, j :: 0 <= i < j < |xs| ==> xs[i] != xs[j]
  }

  /** `new Set(xs)` in iteration order: each element once, where it first occurs. */
  function Dedup(xs: seq<string>): (d: seq<string>)
    ensures |d| <= |xs|
    ensures xs != [] ==> d != [] && d[0] == xs[0]
  {
    if xs == [] then []
    else
      var d := Dedup(xs[..|xs| - 1]);
      var x := xs[|xs| - 1];
      if x in d then d else d + [x]
  }

  /** `Dedup` keeps every element of the list and none twice. */
  lemma {:induction false} DedupSpec(xs: seq<string>)
    ensures Distinct(Dedup(xs))
    ensures forall x :: x in Dedup(xs) <==> x in xs
  {
    if xs != [] {
      var init := xs[..|xs| - 1];
      var x := xs[|xs| - 1];
      DedupSpec(init);
      assert xs == init + [x];
    }
  }

  /** A list element not seen before is kept, at the end. */
  lemma DedupStepNew(xs: seq<string>, i: nat)
    requires i < |xs| && xs[i] !in Dedup(xs[..i])
    ensures Dedup(xs[..i + 1]) == Dedup(xs[..i]) + [xs[i]]
  {
    assert xs[..i + 1][..i] == xs[..i];
  }

  /** A list element seen before is not kept again. */
  lemma DedupStepSeen(xs: seq<string>, i: nat)
    requires i < |xs| && xs[i] in Dedup(xs[..i])
    ensures Dedup(xs[..i + 1]) == Dedup(xs[..i])
  {
    assert xs[..i + 1][..i] == xs[..i];
  }

  /** Dedup of a prefix is a prefix of the dedup: the order is that of first occurrences. */
  lemma {:induction false} DedupPrefix(xs: seq<string>, k: nat)
    requires k <= |xs|
    ensures Dedup(xs[..k]) <= Dedup(xs)
    decreases |xs| - k
  {
    if k < |xs| {
      var init := xs[..|xs| - 1];
      assert init[..k] == xs[..k];
      DedupPrefix(init, k);
    } else {
      assert xs[..k] == xs;
    }
  }

  /** The callbacks a message on `topic` reaches: exact topic equality, in list order. */
  function Receivers(subs: seq<Subscription>, topic: string): (cbs: seq<CallbackId>)
    ensures |cbs| <= |subs|
  {
    if subs == [] then []
    else
      var rest := Receivers(subs[..|subs| - 1], topic);
      var last := subs[|subs| - 1];
      if last.topic == topic then rest + [last.callback] else rest
  }

  /** A callback is reached exactly when one of its subscriptions names the topic. */
  lemma {:induction false} ReceiversExact(subs: seq<Subscription>, topic: string, cb: CallbackId)
    ensures cb in Receivers(subs, topic) <==> Subscription(topic, cb) in subs
  {
    if subs != [] {
      var init := subs[..|subs| - 1];
      ReceiversExact(init, topic, cb);
      assert subs == init + [subs[|subs| - 1]];
    }
  }

  /** Receivers of a concatenation: the first part's, then the second's. */
  lemma {:induction false} ReceiversConcat(a: seq<Subscription>, b: seq<Subscription>, topic: string)
    ensures Receivers(a + b, topic) == Receivers(a, topic) + Receivers(b, topic)
    decreases |b|
  {
    if b == [] {
      assert a + b == a;
    } else {
      var b0 := b[..|b| - 1];
      assert (a + b)[..|a + b| - 1] == a + b0;
      ReceiversConcat(a, b0, topic);
    }
  }

  /**
   * What a `forEach` over `cbs` calls when each call may throw: every
   * callback up to and including the first that throws, which ends the loop.
   */
  function UpToFirstThrow(cbs: seq<CallbackId>, throws: CallbackId -> bool): (r: seq<CallbackId>)
    ensures |r| <= |cbs|
  {
    if cbs == [] then []
    else if throws(cbs[0]) then [cbs[0]]
    else [cbs[0]] + UpToFirstThrow(cbs[1..], throws)
  }

  /** `cbs` is non-empty and its last callback throws. */
  predicate EndsInThrow(cbs: seq<CallbackId>, throws: CallbackId -> bool) {
    cbs != [] && throws(cbs[|cbs| - 1])
  }

  /** `UpToFirstThrow` is a prefix of the list, and only its last entry may throw. */
  lemma {:induction false} UpToFirstThrowPrefix(cbs: seq<CallbackId>, throws: CallbackId -> bool)
    ensures var r := UpToFirstThrow(cbs, throws);
      r == cbs[..|r|] && forall i :: 0 <= i < |r| - 1 ==> !throws(r[i])
  {
    if cbs != [] && !throws(cbs[0]) {
      var rest := UpToFirstThrow(cbs[1..], throws);
      UpToFirstThrowPrefix(cbs[1..], throws);
      var r := [cbs[0]] + rest;
      assert UpToFirstThrow(cbs, throws) == r;
      assert r == cbs[..|r|];
      forall i | 0 <= i < |r| - 1 ensures !throws(r[i]) {
        if i > 0 { assert r[i] == rest[i - 1]; }
      }
    }
  }

  /** `UpToFirstThrow` ends in a throwing callback exactly when the list holds one. */
  lemma {:induction false} UpToFirstThrowEnds(cbs: seq<CallbackId>, throws: CallbackId -> bool)
    ensures (exists c :: c in cbs && throws(c)) <==> EndsInThrow(UpToFirstThrow(cbs, throws), throws)
  {
    if cbs != [] && !throws(cbs[0]) {
      var rest := UpToFirstThrow(cbs[1..], throws);
      UpToFirstThrowEnds(cbs[1..], throws);
      var r := [cbs[0]] + rest;
      assert UpToFirstThrow(cbs, throws) == r;
      if rest != [] { assert r[|r| - 1] == rest[|rest| - 1]; }
      if exists c :: c in cbs && throws(c) {
        var c :| c in cbs && throws(c);
        assert c in cbs[1..];
      }
      if EndsInThrow(rest, throws) {
        UpToFirstThrowPrefix(cbs[1..], throws);
        assert rest[|rest| - 1] == cbs[1..][|rest| - 1];
      }
    }
  }

  /** When it does not end in a throwing callback, `UpToFirstThrow` is the whole list. */
  lemma {:induction false} UpToFirstThrowWhole(cbs: seq<CallbackId>, throws: CallbackId -> bool)
    requires !EndsInThrow(UpToFirstThrow(cbs, throws), throws)
    ensures UpToFirstThrow(cbs, throws) == cbs
  {
    if cbs != [] {
      var rest := UpToFirstThrow(cbs[1..], throws);
      var r := [cbs[0]] + rest;
      assert UpToFirstThrow(cbs, throws) == r;
      if rest != [] { assert r[|r| - 1] == rest[|rest| - 1]; }
      UpToFirstThrowWhole(cbs[1..], throws);
      assert cbs == [cbs[0]] + cbs[1..];
    }
  }

  /** Once the list reaches a throwing callback, nothing after it is called. */
  lemma {:induction false} UpToFirstThrowStops(a: seq<CallbackId>, b: seq<CallbackId>, throws: CallbackId -> bool)
    requires a != [] && throws(a[|a| - 1])
    requires forall i :: 0 <= i < |a| - 1 ==> !throws(a[i])
    ensures UpToFirstThrow(a + b, throws) == a
  {
    assert (a + b)[0] == a[0];
    if |a| > 1 {
      assert (a + b)[1..] == a[1..] + b;
      assert a[1..][|a| - 2] == a[|a| - 1];
      UpToFirstThrowStops(a[1..], b, throws);
      assert a == [a[0]] + a[1..];
    }
  }

  lemma ReceiversSplit(subs: seq<Subscription>, i: nat, topic: string)
    requires i <= |subs|
    ensures Receivers(subs, topic) == Receivers(subs[..i], topic) + Receivers(subs[i..], topic)
  {
    assert subs[..i] + subs[i..] == subs;
    ReceiversConcat(subs[..i], subs[i..], topic);
  }

  /** The list without the entries equal to `s` in both topic and callback, in the original order. */
  function Remove(subs: seq<Subscription>, s: Subscription): (r: seq<Subscription>)
    ensures forall x :: x in r <==> x in subs && x != s
    ensures |r| <= |subs|
  {
    if subs == [] then []
    else
      var rest := Remove(subs[..|subs| - 1], s);
      var last := subs[|subs| - 1];
      assert forall y :: y in subs <==> y in subs[..|subs| - 1] || y == last by {
        assert subs == subs[..|subs| - 1] + [last];
      }
      if last == s then rest else rest + [last]
  }

  /** Removal distributes over concatenation, so the survivors keep their relative order. */
  lemma {:induction false} RemoveConcat(a: seq<Subscription>, b: seq<Subscription>, s: Subscription)
    ensures Remove(a + b, s) == Remove(a, s) + Remove(b, s)
    decreases |b|
  {
    if b == [] {
      assert a + b == a;
    } else {
      var b0 := b[..|b| - 1];
      assert (a + b)[..|a + b| - 1] == a + b0;
      RemoveConcat(a, b0, s);
    }
  }

  /** Removing what is absent changes nothing. */
  lemma {:induction false} RemoveAbsent(subs: seq<Subscription>, s: Subscription)
    requires s !in subs
    ensures Remove(subs, s) == subs
  {
    if subs != [] {
      assert subs[..|subs| - 1] + [subs[|subs| - 1]] == subs;
      RemoveAbsent(subs[..|subs| - 1], s);
    }
  }

  class Broker {
    const host: string
    /** Whether `client` is set. */
    var hasClient: bool
    var subscribers: seq<Subscription>
    /** Calls made on the client, oldest first. */
    var client: seq<ClientCall>

    /** `new Broker(host?)`: a missing host is the default one. */
    constructor(host: Option<string>)
      ensures this.host == (if host.Some? then host.value else "localhost:1833")
      ensures !hasClient && subscribers == [] && client == []
    {
      this.host := if host.Some? then host.value else DefaultHost;
      hasClient := false;
      subscribers := [];
      client := [];
    }

    /** `init`: connects once; a second call with a client in place does nothing. */
    method Init()
      modifies this
      ensures hasClient
      ensures old(hasClient) ==> client == old(client)
      ensures !old(hasClient) ==> client == old(client) + [Connect("mqtt://" + host)]
      ensures subscribers == old(subscribers)
    {
      if hasClient {
        return;
      }
      hasClient := true;
      client := client + [Connect("mqtt://" + host)];
    }

    /** `subscribe`: appends, duplicates included. */
    method Subscribe(topic: string, callback: CallbackId)
      modifies this
      ensures subscribers == old(subscribers) + [Subscription(topic, callback)]
      ensures hasClient == old(hasClient) && client == old(client)
    {
      subscribers := subscribers + [Subscription(topic, callback)];
    }

    /** `unsubscribe`: drops the entries equal in both topic and callback. */
    method Unsubscribe(topic: string, callback: CallbackId)
      modifies this
      ensures subscribers == Remove(old(subscribers), Subscription(topic, callback))
      ensures hasClient == old(hasClient) && client == old(client)
    {
      subscribers := Remove(subscribers, Subscription(topic, callback));
    }

    /**
     * The `message` handler: calls, in list order, each callback subscribed
     * to exactly `topic`. A callback that throws ends the `forEach`, and the
     * exception leaves the handler (`threw`).
     */
    method OnMessage(topic: string, throws: CallbackId -> bool) returns (called: seq<CallbackId>, threw: bool)
      ensures called == UpToFirstThrow(Receivers(subscribers, topic), throws)
      ensures threw <==> exists c :: c in Receivers(subscribers, topic) && throws(c)
    {
      called := [];
      threw := false;
      var i := 0;
      while i < |subscribers| && !threw
        invariant 0 <= i <= |subscribers|
        invariant called == Receivers(subscribers[..i], topic)
        invariant forall j :: 0 <= j < |called| - 1 ==> !throws(called[j])
        invariant threw <==> called != [] && throws(called[|called| - 1])
      {
        assert subscribers[..i + 1][..i] == subscribers[..i];
        if subscribers[i].topic == topic {
          var cb := subscribers[i].callback;
          called := called + [cb];
          threw := throws(cb);
        }
        i := i + 1;
      }
      ReceiversSplit(subscribers, i, topic);
      var all := Receivers(subscribers, topic);
      UpToFirstThrowEnds(all, throws);
      if threw {
        UpToFirstThrowStops(called, Receivers(subscribers[i..], topic), throws);
      } else {
        assert subscribers[..i] == subscribers;
        UpToFirstThrowWhole(all, throws);
      }
    }

    /**
     * The `connect` handler: subscribes the client to each distinct topic of
     * the table once, in order of first occurrence, then announces the hub.
     */
    method OnConnect()
      requires hasClient
      modifies this
      ensures client == old(client) + SubscribeAll(Dedup(Topics(subscribers))) + [PublishCall(ConnectedTopic, "true")]
      ensures subscribers == old(subscribers) && hasClient
    {
      var subs := subscribers;
      ghost var ts := Topics(subs);
      var seen: seq<string> := [];
      var calls := client;
      var i := 0;
      while i < |subs|
        invariant 0 <= i <= |subs|
        invariant seen == Dedup(ts[..i])
        invariant calls == old(client) + SubscribeAll(seen)
        invariant subscribers == subs && hasClient
      {
        var t := subs[i].topic;
        if t !in seen {
          DedupStepNew(ts, i);
          SubscribeAllSnoc(seen, t);
          seen := seen + [t];
          calls := calls + [SubscribeCall(t)];
        } else {
          DedupStepSeen(ts, i);
        }
        i := i + 1;
      }
      assert ts[..i] == ts;
      client := calls + [PublishCall(ConnectedTopic, "true")];
    }

    /** `publish` goes through `client!`: without a client it is a `TypeError`. */
    method Publish(topic: string, message: string) returns (r: Result<(), string>)
      modifies this
      ensures r.Success? <==> hasClient
      ensures hasClient ==> client == old(client) + [PublishCall(topic, message)]
      ensures !hasClient ==> client == old(client)
      ensures subscribers == old(subscribers) && hasClient == old(hasClient)
    {
      if !hasClient {
        return Failure("TypeError");
      }
      client := client + [PublishCall(topic, message)];
      r := Success(());
    }

    /** The shutdown handler: with `cleanup`, marks the hub offline through `client?`. */
    method OnShutdown(cleanup: bool)
      modifies this
      ensures cleanup && hasClient ==> client == old(client) + [PublishCall(ConnectedTopic, "false")]
      ensures !(cleanup && hasClient) ==> client == old(client)
      ensures subscribers == old(subscribers) && hasClient == old(hasClient)
    {
      if cleanup && hasClient {
        client := client + [PublishCall(ConnectedTopic, "false")];
      }
    }
  }

  /** One `subscribe` call per topic, in order. */
  function SubscribeAll(topics: seq<string>): (calls: seq<ClientCall>)
    ensures |calls| == |topics|
    ensures forall i :: 0 <= i < |topics| ==> calls[i] == SubscribeCall(topics[i])
  {
    if topics == [] then [] else [SubscribeCall(topics[0])] + SubscribeAll(topics[1..])
  }

  lemma {:induction false} SubscribeAllSnoc(topics: seq<string>, t: string)
    ensures SubscribeAll(topics + [t]) == SubscribeAll(topics) + [SubscribeCall(t)]
  {
  }

  /** Each distinct topic of the table is subscribed exactly once on connect. */
  lemma ConnectSubscribesOnce(subs: seq<Subscription>, t: string)
    ensures SubscribeCall(t) in SubscribeAll(Dedup(Topics(subs))) <==> exists i :: 0 <= i < |subs| && subs[i].topic == t
    ensures forall i, j :: 0 <= i < j < |Dedup(Topics(subs))| ==>
      SubscribeAll(Dedup(Topics(subs)))[i] != SubscribeAll(Dedup(Topics(subs)))[j]
  {
    var ts := Topics(subs);
    var d := Dedup(ts);
    DedupSpec(ts);
    SubscribeAllOnce(d, t);
    assert t in d <==> t in ts;
    TopicsHas(subs, t);
  }

  lemma TopicsHas(subs: seq<Subscription>, t: string)
    ensures t in Topics(subs) <==> exists i :: 0 <= i < |subs| && subs[i].topic == t
  {
    var ts := Topics(subs);
    if t in ts {
      var i :| 0 <= i < |ts| && ts[i] == t;
      assert subs[i].topic == t;
    }
  }

  /** Subscribing to a list of distinct topics subscribes to each of them once. */
  lemma SubscribeAllOnce(d: seq<string>, t: string)
    requires Distinct(d)
    ensures SubscribeCall(t) in SubscribeAll(d) <==> t in d
    ensures forall i, j :: 0 <= i < j < |d| ==> SubscribeAll(d)[i] != SubscribeAll(d)[j]
  {
    var calls := SubscribeAll(d);
    if SubscribeCall(t) in calls {
      var k :| 0 <= k < |calls| && calls[k] == SubscribeCall(t);
      assert d[k] == t;
    }
    if t in d {
      var k :| 0 <= k < |d| && d[k] == t;
      assert calls[k] == SubscribeCall(t);
    }
  }
}

=== FILE: errors.dfy ===
/**
 * The error classes of src/utils/errors.ts: `ExtendedError`, which names an
 * error after its class, and `RethrownError`, which wraps a caught error and
 * splices the caught error's stack under the header of its own.
 */
module Errors {
  import opened Wrappers
  import opened Text

  /** A JavaScript error object: its class name, message, stack text and, for a rethrown error, the error it wraps. */
  datatype JsError = JsError(name: string, message: string, stack: Option<string>, original: Option<JsError>)

  /**
   * `new C(message)` for a subclass `C` of ExtendedError, where `ctorName` is
   * `C`'s name and `capturedStack` the stack the runtime records at the call.
   */
  function ExtendedError(ctorName: string, message: string, capturedStack: string): (e: JsError)
    ensures e.name == ctorName && e.message == message
    ensures e.stack == Some(capturedStack) && e.original == None
  {
    JsError(ctorName, message, Some(capturedStack), None)
  }

  /** How many lines the message spans: its newlines plus one. */
  function MessageLines(message: string): (n: nat)
    ensures n >= 1
    ensures n == |Split(message, '\n')|
  {
    CountChar(message, '\n') + 1
  }

  /** String concatenation renders a missing stack as "undefined". */
  function StackText(stack: Option<string>): string {
    match stack
    case Some(s) => s
    case None => "undefined"
  }

  /** The first `n` lines of a stack, joined back together. */
  function StackHead(stack: string, n: nat): string {
    Join(Take(Split(stack, '\n'), n), "\n")
  }

  /**
   * `new C(message, error)` for a subclass `C` of RethrownError. A missing
   * `error` makes the constructor throw a plain Error with a fixed message.
   */
  function RethrownError(ctorName: string, message: string, error: Option<JsError>, capturedStack: string)
    : (r: Result<JsError, string>)
    ensures r.Failure? <==> error.None?
    ensures r.Failure? ==> r.error == "RethrownError requires a message and error"
    ensures r.Success? ==> r.value.name == ctorName && r.value.message == message && r.value.original == error
    ensures r.Success? ==> r.value.stack.Some? && EndsWith(r.value.stack.value, "\n" + StackText(error.value.stack))
  {
    if error.None? then
      Failure("RethrownError requires a message and error")
    else
      var base := ExtendedError(ctorName, message, capturedStack);
      var tail := "\n" + StackText(error.value.stack);
      var spliced := StackHead(capturedStack, MessageLines(message) + 1) + tail;
      EndsWithAppended(StackHead(capturedStack, MessageLines(message) + 1), tail);
      Success(base.(stack := Some(spliced), original := error))
  }

  /**
   * The lines of a rethrown error's stack are the first `messageLines + 1`
   * lines of its own captured stack followed by every line of the original's.
   */
  lemma RethrownStackLines(ctorName: string, message: string, error: JsError, capturedStack: string)
    ensures var r := RethrownError(ctorName, message, Some(error), capturedStack);
      r.Success? && r.value.stack.Some? &&
      Split(r.value.stack.value, '\n')
        == Take(Split(capturedStack, '\n'), MessageLines(message) + 1) + Split(StackText(error.stack), '\n')
  {
    var lines := Take(Split(capturedStack, '\n'), MessageLines(message) + 1);
    var head := StackHead(capturedStack, MessageLines(message) + 1);
    SplitPartsAvoidSeparator(capturedStack, '\n');
    SplitJoin(lines, '\n');
    SplitConcat(head, '\n', StackText(error.stack));
    AppendAssoc(head, "\n", StackText(error.stack));
  }

  /** When the captured stack is no longer than the header, it is kept whole. */
  lemma RethrownKeepsShortStack(ctorName: string, message: string, error: JsError, capturedStack: string)
    requires CountChar(capturedStack, '\n') <= MessageLines(message)
    ensures var r := RethrownError(ctorName, message, Some(error), capturedStack);
      r.Success? && r.value.stack == Some(capturedStack + "\n" + StackText(error.stack))
  {
    JoinSplit(capturedStack, '\n');
    AppendAssoc(capturedStack, "\n", StackText(error.stack));
  }

  /**
   * With a stack in V8's format, whose first lines are the header
   * `<name>: <message>`, the spliced stack keeps that whole header: the
   * `messageLines + 1` lines cover the message's lines and the throw site.
   */
  lemma RethrownKeepsHeader(ctorName: string, message: string, error: JsError, capturedStack: string)
    requires '\n' !in ctorName
    requires StartsWith(capturedStack, ctorName + ": " + message)
    ensures var r := RethrownError(ctorName, message, Some(error), capturedStack);
      r.Success? && r.value.stack.Some? && StartsWith(r.value.stack.value, ctorName + ": " + message)
  {
    var header := ctorName + ": " + message;
    var rest := capturedStack[|header|..];
    assert capturedStack == header + rest;
    CountCharConcat(ctorName + ": ", message, '\n');
    CountCharConcat(ctorName, ": ", '\n');
    CountCharAbsent(ctorName, '\n');
    JoinTakeSplitKeepsPrefix(header, rest, '\n', MessageLines(message) + 1);
    var head := StackHead(capturedStack, MessageLines(message) + 1);
    var tail := "\n" + StackText(error.stack);
    assert (head + tail)[..|header|] == head[..|header|];
  }
}

=== FILE: integration.dfy ===
/**
 * The `Integration` base class of src/integrations/index.ts: its route
 * table, the first-match dispatch of incoming messages, the command wrapper
 * with its error reports, and the keying of its persisted state.
 *
 * MQTT is a log of the subscribe and publish calls made; callbacks are
 * opaque ids, and running one is recorded as a call entry. Whether a
 * command callback throws is given as a predicate on that entry, and
 * `parseCommand` (`JSON.parse` of the message) as a function that answers
 * `None` where it throws.
 */
module Integrations {
  import opened Wrappers
  import opened Text
  import opened JsonValue
  import opened Topics
  import opened StateDoc
  import FileStore

  type CallbackId = nat

  /** A route's callback: a plain message callback, or a command callback behind `routeCommand`'s wrapper. */
  datatype Handler = MessageHandler(cb: CallbackId) | CommandHandler(cb: CallbackId)

  /** `{ match, regex, mqttTopic, callback }`. */
  datatype Route = Route(pattern: string, regex: seq<Token>, mqttTopic: string, handler: Handler)

  /** `{ route, topic, params }`. */
  datatype RouteInfo = RouteInfo(route: Route, topic: string, params: map<string, string>)

  /** What `publish` serialises: `undefined`, a command payload, or another JSON value. */
  datatype Payload = Undefined | CommandPayload(cmd: Command) | JsonPayload(value: Value)

  /** A call made on the MQTT client. */
  datatype MqttCall = SubscribeCall(topic: string) | PublishCall(topic: string, payload: Payload)

  /** A callback run by `onMessage`, with the arguments it received. */
  datatype Call =
    | MessageCall(cb: CallbackId, info: RouteInfo, message: string)
    | CommandCall(cb: CallbackId, info: RouteInfo, cmd: Command)

  /** `payload` as `onCommandError` passes it on to `publish`. */
  function ErrorPayload(payload: Option<Command>): Payload {
    if payload.Some? then CommandPayload(payload.value) else Undefined
  }

  /** `${topicPrefix}/entity/${entity.id}`. */
  function EntityTopic(topicPrefix: string, entityId: string): (t: string)
    ensures StartsWith(t, topicPrefix + "/entity/")
    ensures t[|topicPrefix| + 8..] == entityId
  {
    topicPrefix + "/entity/" + entityId
  }

  /** Under one prefix, entities with different ids get different topics. */
  lemma EntityTopicInjective(topicPrefix: string, a: string, b: string)
    ensures EntityTopic(topicPrefix, a) == EntityTopic(topicPrefix, b) <==> a == b
  {
    if EntityTopic(topicPrefix, a) == EntityTopic(topicPrefix, b) {
      assert a == EntityTopic(topicPrefix, a)[|topicPrefix| + 8..];
    }
  }

  /** The first route, at or after `from`, whose matcher accepts `topic`. */
  function FirstRouteFrom(routes: seq<Route>, topic: string, from: nat): (r: Option<nat>)
    requires from <= |routes|
    ensures r.Some? ==> from <= r.value < |routes| && Match(routes[r.value].regex, topic).Some?
    ensures r.Some? ==> forall j :: from <= j < r.value ==> Match(routes[j].regex, topic).None?
    ensures r.None? ==> forall j :: from <= j < |routes| ==> Match(routes[j].regex, topic).None?
    decreases |routes| - from
  {
    if from == |routes| then None
    else if Match(routes[from].regex, topic).Some? then Some(from)
    else FirstRouteFrom(routes, topic, from + 1)
  }

  /** The route `onMessage` picks: the first one, in registration order, that matches. */
  function FirstRoute(routes: seq<Route>, topic: string): (r: Option<nat>)
    ensures r.Some? ==> r.value < |routes| && Match(routes[r.value].regex, topic).Some?
    ensures r.Some? ==> forall j :: 0 <= j < r.value ==> Match(routes[j].regex, topic).None?
    ensures r.None? ==> forall j :: 0 <= j < |routes| ==> Match(routes[j].regex, topic).None?
  {
    FirstRouteFrom(routes, topic, 0)
  }

  /** The route info `onMessage` hands to the callback. */
  function Info(route: Route, topic: string): (info: RouteInfo)
    requires Match(route.regex, topic).Some?
    ensures info.route == route && info.topic == topic
    ensures info.params.Keys == set n | n in ParamNames(route.regex)
  {
    var caps := Match(route.regex, topic).value.1;
    RouteInfo(route, topic, Bind(ParamNames(route.regex), caps))
  }

  /**
   * What running a route's callback leaves behind: the callbacks run and the
   * messages published. A command route whose message does not parse runs
   * nothing and reports to `<topic>//error` with an undefined payload; one
   * whose callback throws reports the command to its error topic.
   */
  function Dispatch(route: Route, info: RouteInfo, message: string,
                    parse: string -> Option<Command>, throws: Call -> bool): (r: (seq<Call>, seq<MqttCall>))
    ensures |r.0| <= 1 && |r.1| <= 1
    ensures route.handler.MessageHandler? ==> r == ([MessageCall(route.handler.cb, info, message)], [])
    ensures route.handler.CommandHandler? && parse(message).None? ==>
      r == ([], [PublishCall(ErrorTopic(info.topic, None), Undefined)])
    ensures route.handler.CommandHandler? && parse(message).Some? ==>
      && r.0 == [CommandCall(route.handler.cb, info, parse(message).value)]
      && (r.1 != [] <==> throws(r.0[0]))
      && (r.1 != [] ==> r.1 == [PublishCall(ErrorTopic(info.topic, parse(message)), CommandPayload(parse(message).value))])
  {
    match route.handler
    case MessageHandler(cb) => ([MessageCall(cb, info, message)], [])
    case CommandHandler(cb) =>
      match parse(message)
      case None => ([], [PublishCall(ErrorTopic(info.topic, None), Undefined)])
      case Some(cmd) =>
        var call := CommandCall(cb, info, cmd);
        ([call], if throws(call) then [PublishCall(ErrorTopic(info.topic, Some(cmd)), CommandPayload(cmd))] else [])
  }

  /** Only a command route's wrapper publishes, and only to the error topic of the message's topic. */
  lemma DispatchPublishesOnlyErrors(route: Route, info: RouteInfo, message: string,
                                     parse: string -> Option<Command>, throws: Call -> bool)
    ensures forall c :: c in Dispatch(route, info, message, parse, throws).1 ==>
      && route.handler.CommandHandler?
      && c == PublishCall(ErrorTopic(info.topic, parse(message)), ErrorPayload(parse(message)))
  {
  }

  /** The state namespace of an integration is its class name, which differs from its canonical name whenever the class name has an upper-case letter. */
  lemma StateKeyIsNotCanonicalName(className: string, i: nat)
    requires i < |className| && 'A' <= className[i] <= 'Z'
    ensures CanonicalName(className) != className
  {
    var n := CanonicalName(className);
    if |n| == |className| {
      assert !('A' <= n[i] <= 'Z');
    }
  }

  class Integration {
    /** `this.constructor.name`. */
    const className: string
    /** `#name`, the canonical name. */
    const name: string
    const id: string
    const deviceId: string
    const config: Object
    const store: FileStore.Store
    var routes: seq<Route>
    /** Calls made on this integration's MQTT client, oldest first. */
    var mqtt: seq<MqttCall>
    /** Callbacks run by `onMessage`, oldest first. */
    var calls: seq<Call>

    constructor(className: string, id: string, deviceId: string, store: FileStore.Store, config: Object)
      ensures this.className == className && name == CanonicalName(className)
      ensures this.id == id && this.deviceId == deviceId && this.store == store && this.config == config
      ensures routes == [] && mqtt == [] && calls == []
    {
      this.className := className;
      name := CanonicalName(className);
      this.id := id;
      this.deviceId := deviceId;
      this.store := store;
      this.config := config;
      routes := [];
      mqtt := [];
      calls := [];
    }

    /** `subscribe`. */
    method Subscribe(topic: string)
      modifies this
      ensures mqtt == old(mqtt) + [SubscribeCall(topic)]
      ensures routes == old(routes) && calls == old(calls)
    {
      mqtt := mqtt + [SubscribeCall(topic)];
    }

    /** `publish`. */
    method Publish(topic: string, payload: Payload)
      modifies this
      ensures mqtt == old(mqtt) + [PublishCall(topic, payload)]
      ensures routes == old(routes) && calls == old(calls)
    {
      mqtt := mqtt + [PublishCall(topic, payload)];
    }

    /**
     * `publishEntity`: the caller's `JSON.stringify(entity)` is handed to
     * `publish` as a string, which serialises it a second time.
     */
    method PublishEntity(topicPrefix: string, entityId: string, entityJson: string)
      modifies this
      ensures mqtt == old(mqtt) + [PublishCall(EntityTopic(topicPrefix, entityId), JsonPayload(Str(entityJson)))]
      ensures routes == old(routes) && calls == old(calls)
    {
      Publish(topicPrefix + "/entity/" + entityId, JsonPayload(Str(entityJson)));
    }

    /**
     * The body of `route`: compile the pattern, append the route, subscribe
     * to its topic. `new RegExp` throws, before anything is appended, when a
     * group name is not an identifier or occurs twice.
     */
    method AddRoute(pattern: string, handler: Handler) returns (r: Result<(), string>)
      modifies this
      ensures r.Success? <==> RegexAccepts(Compile(pattern))
      ensures r.Success? ==> routes == old(routes) + [Route(pattern, Compile(pattern), SubscriptionTopic(pattern), handler)]
      ensures r.Success? ==> mqtt == old(mqtt) + [SubscribeCall(SubscriptionTopic(pattern))]
      ensures r.Failure? ==> routes == old(routes) && mqtt == old(mqtt)
      ensures calls == old(calls)
    {
      var regex := Compile(pattern);
      if !RegexAccepts(regex) {
        return Failure("SyntaxError: Invalid regular expression");
      }
      var mqttTopic := SubscriptionTopic(pattern);
      routes := routes + [Route(pattern, regex, mqttTopic, handler)];
      Subscribe(mqttTopic);
      r := Success(());
    }

    /** `route(match, callback)`. */
    method RouteMessages(pattern: string, cb: CallbackId) returns (r: Result<(), string>)
      modifies this
      ensures r.Success? <==> RegexAccepts(Compile(pattern))
      ensures r.Success? ==> routes == old(routes) + [Route(pattern, Compile(pattern), SubscriptionTopic(pattern), MessageHandler(cb))]
      ensures r.Success? ==> mqtt == old(mqtt) + [SubscribeCall(SubscriptionTopic(pattern))]
      ensures r.Failure? ==> routes == old(routes) && mqtt == old(mqtt)
      ensures calls == old(calls)
    {
      r := AddRoute(pattern, MessageHandler(cb));
    }

    /** `routeCommand(match, callback)`: the callback behind the parsing wrapper. */
    method RouteCommand(pattern: string, cb: CallbackId) returns (r: Result<(), string>)
      modifies this
      ensures r.Success? <==> RegexAccepts(Compile(pattern))
      ensures r.Success? ==> routes == old(routes) + [Route(pattern, Compile(pattern), SubscriptionTopic(pattern), CommandHandler(cb))]
      ensures r.Success? ==> mqtt == old(mqtt) + [SubscribeCall(SubscriptionTopic(pattern))]
      ensures r.Failure? ==> routes == old(routes) && mqtt == old(mqtt)
      ensures calls == old(calls)
    {
      r := AddRoute(pattern, CommandHandler(cb));
    }

    /** `onCommandError`: publishes the payload, or `undefined`, to the error topic. */
    method OnCommandError(info: RouteInfo, payload: Option<Command>)
      modifies this
      ensures mqtt == old(mqtt) + [PublishCall(ErrorTopic(info.topic, payload), ErrorPayload(payload))]
      ensures routes == old(routes) && calls == old(calls)
    {
      Publish(ErrorTopic(info.topic, payload), ErrorPayload(payload));
    }

    /** Runs a route's callback; a command route goes through `routeCommand`'s wrapper. */
    method RunCallback(route: Route, info: RouteInfo, message: string,
                       parse: string -> Option<Command>, throws: Call -> bool)
      modifies this
      ensures calls == old(calls) + Dispatch(route, info, message, parse, throws).0
      ensures mqtt == old(mqtt) + Dispatch(route, info, message, parse, throws).1
      ensures routes == old(routes)
    {
      match route.handler
      case MessageHandler(cb) =>
        calls := calls + [MessageCall(cb, info, message)];
      case CommandHandler(cb) =>
        var payload := parse(message);
        if payload.None? {
          OnCommandError(info, None);
        } else {
          var call := CommandCall(cb, info, payload.value);
          calls := calls + [call];
          if throws(call) {
            OnCommandError(info, payload);
          }
        }
    }

    /**
     * `onMessage`: scans the routes in registration order and runs the
     * callback of the first whose matcher accepts the topic, and no other,
     * whether or not that callback throws.
     */
    method OnMessage(topic: string, message: string, parse: string -> Option<Command>, throws: Call -> bool)
      returns (chosen: Option<nat>)
      modifies this
      ensures chosen == FirstRoute(routes, topic)
      ensures chosen.None? ==> calls == old(calls) && mqtt == old(mqtt)
      ensures chosen.Some? ==>
        var d := Dispatch(routes[chosen.value], Info(routes[chosen.value], topic), message, parse, throws);
        calls == old(calls) + d.0 && mqtt == old(mqtt) + d.1
      ensures routes == old(routes)
    {
      var i := 0;
      while i < |routes|
        invariant 0 <= i <= |routes|
        invariant forall j :: 0 <= j < i ==> Match(routes[j].regex, topic).None?
        invariant calls == old(calls) && mqtt == old(mqtt) && routes == old(routes)
      {
        var m := Match(routes[i].regex, topic);
        if m.Some? {
          var info := RouteInfo(routes[i], topic, Bind(ParamNames(routes[i].regex), m.value.1));
          RunCallback(routes[i], info, message, parse, throws);
          FirstRouteIs(routes, topic, i);
          return Some(i);
        }
        i := i + 1;
      }
      FirstRouteIsNone(routes, topic);
      return None;
    }

    /** `setState`: merges into the store's namespace named after the class, not the canonical name. */
    method SetState(state: Namespace)
      modifies store
      ensures store.doc == StateDoc.SetState(old(store.doc), className, state)
      ensures store.file == Some(store.serialize(store.doc))
      ensures store.writes == old(store.writes) + [store.serialize(store.doc)]
    {
      store.SetState(className, state);
    }

    /** `getState`: the store's namespace named after the class. */
    method GetState() returns (state: Namespace)
      ensures state == Lookup(store.doc, className)
    {
      state := store.GetState(className);
    }
  }

  lemma FirstRouteIs(routes: seq<Route>, topic: string, i: nat)
    requires i < |routes| && Match(routes[i].regex, topic).Some?
    requires forall j :: 0 <= j < i ==> Match(routes[j].regex, topic).None?
    ensures FirstRoute(routes, topic) == Some(i)
  {
  }

  lemma FirstRouteIsNone(routes: seq<Route>, topic: string)
    requires forall j :: 0 <= j < |routes| ==> Match(routes[j].regex, topic).None?
    ensures FirstRoute(routes, topic) == None
  {
  }
}

=== FILE: json_value.dfy ===
/**
 * Structured values as they appear in persisted state, command data and
 * integration options: the JSON-shaped values the hub passes around.
 */
module JsonValue {

  datatype Value =
    | Null
    | Bool(b: bool)
    | Num(n: int)
    | Str(s: string)
    | Arr(items: seq<Value>)
    | Obj(fields: map<string, Value>)

  /** A JavaScript object used as a string-keyed dictionary. */
  type Object = map<string, Value>
}

=== FILE: loader.dfy ===
/**
 * src/integrations/loader.ts: the integration manager's module-path choice,
 * `getIntegration`'s error wrapping, and `loadAll`, which keeps the
 * integrations that load and construct, in configuration order.
 *
 * `process.cwd()`, `__dirname`, `path.resolve`, `require` and the
 * integration constructors are foreign; they enter as parameters.
 */
module Loader {
  import opened Wrappers
  import opened Text
  import opened JsonValue
  import opened Errors

  /** `IntegrationConfig`. */
  datatype IntegrationConfig = IntegrationConfig(id: string, moduleName: string, config: Object)

  /** An integration class, by identity. */
  type ClassId = nat

  /** What `require(modulePath)` produced: a throw, a falsy module, or a module and its default export. */
  datatype Required =
    | RequireThrew(err: JsError)
    | FalsyModule
    | Module(defaultExport: Export)

  datatype Export = FunctionExport(cls: ClassId) | OtherExport

  /** `moduleName.substr(n)`. */
  function Drop(s: string, n: nat): (r: string)
    ensures |s| <= n ==> r == []
    ensures |s| > n ==> r == s[n..]
  {
    if |s| <= n then [] else s[n..]
  }

  /** The path `getIntegration` requires, checking `/`, then `./`, then `homeline/integrations`. */
  function ModulePath(moduleName: string, cwd: string, dir: string, resolve: string -> string): (path: string)
    ensures StartsWith(moduleName, "/") ==> path == moduleName
    ensures !StartsWith(moduleName, "/") && StartsWith(moduleName, "./") ==> path == resolve(cwd + "/" + moduleName)
    ensures !StartsWith(moduleName, "/") && !StartsWith(moduleName, "./") && StartsWith(moduleName, "homeline/integrations")
      ==> path == resolve(dir + "/" + Drop(moduleName, 22))
    ensures !StartsWith(moduleName, "/") && !StartsWith(moduleName, "./") && !StartsWith(moduleName, "homeline/integrations")
      ==> path == moduleName
  {
    if StartsWith(moduleName, "/") then moduleName
    else if StartsWith(moduleName, "./") then resolve(cwd + "/" + moduleName)
    else if StartsWith(moduleName, "homeline/integrations") then resolve(dir + "/" + Drop(moduleName, 22))
    else moduleName
  }

  /** A bundled integration is looked up in the loader's directory by its last segment. */
  lemma BundledIntegrationPath(rest: string, cwd: string, dir: string, resolve: string -> string)
    ensures ModulePath("homeline/integrations/" + rest, cwd, dir, resolve) == resolve(dir + "/" + rest)
  {
    var name := "homeline/integrations/" + rest;
    assert name[..21] == "homeline/integrations";
    assert name[..1] != "/" && name[..2] != "./";
    assert name[22..] == rest;
  }

  /** The error thrown inside the `try`, before wrapping. */
  function LoadFailure(required: Required, innerStack: string): (err: Option<JsError>)
    ensures err.None? <==> required.Module? && required.defaultExport.FunctionExport?
    ensures required.FalsyModule? ==> err == Some(ExtendedError("Error", "Module not found", innerStack))
    ensures required.Module? && required.defaultExport.OtherExport? ==>
      err == Some(ExtendedError("Error", "Integration did not export a function", innerStack))
    ensures required.RequireThrew? ==> err == Some(required.err)
  {
    match required
    case RequireThrew(e) => Some(e)
    case FalsyModule => Some(ExtendedError("Error", "Module not found", innerStack))
    case Module(OtherExport) => Some(ExtendedError("Error", "Integration did not export a function", innerStack))
    case Module(FunctionExport(_)) => None
  }

  /**
   * `getIntegration`: the exported class, or an `IntegrationLoadError`
   * naming the module and its path and wrapping the cause.
   */
  function GetIntegration(moduleName: string, cwd: string, dir: string, resolve: string -> string,
                          require: string -> Required, innerStack: string, capturedStack: string): (r: Result<ClassId, JsError>)
    ensures var req := require(ModulePath(moduleName, cwd, dir, resolve));
      r.Success? <==> req.Module? && req.defaultExport.FunctionExport?
    ensures r.Success? ==> r.value == require(ModulePath(moduleName, cwd, dir, resolve)).defaultExport.cls
    ensures r.Failure? ==>
      && r.error.name == "IntegrationLoadError"
      && r.error.message == "Invalid integration: " + moduleName + " (" + ModulePath(moduleName, cwd, dir, resolve) + ")"
      && r.error.original == LoadFailure(require(ModulePath(moduleName, cwd, dir, resolve)), innerStack)
  {
    var path := ModulePath(moduleName, cwd, dir, resolve);
    var required := require(path);
    match LoadFailure(required, innerStack)
    case None => Success(required.defaultExport.cls)
    case Some(cause) =>
      Failure(RethrownError("IntegrationLoadError", "Invalid integration: " + moduleName + " (" + path + ")",
                            Some(cause), capturedStack).value)
  }

  /** An integration `loadAll` constructed: its class and the two constructor arguments. */
  datatype Constructed = Constructed(cls: ClassId, options: Object, config: Object)

  /** The options a configuration's integration receives: `{...options, id}`. */
  function OptionsFor(options: Object, id: string): (o: Object)
    ensures o.Keys == options.Keys + {"id"}
    ensures o["id"] == Str(id)
    ensures forall k :: k in options && k != "id" ==> o[k] == options[k]
  {
    options["id" := Str(id)]
  }

  /**
   * One configuration's outcome: `load(module)` is `getIntegration` with its
   * foreign inputs fixed; `constructs` says whether the constructor returns
   * rather than throws.
   */
  function LoadOne(c: IntegrationConfig, options: Object, load: string -> Result<ClassId, JsError>,
                   constructs: (ClassId, Object, Object) -> bool): (r: Option<Constructed>)
    ensures r.Some? <==> load(c.moduleName).Success? && constructs(load(c.moduleName).value, OptionsFor(options, c.id), c.config)
    ensures r.Some? ==> r.value == Constructed(load(c.moduleName).value, OptionsFor(options, c.id), c.config)
  {
    match load(c.moduleName)
    case Failure(_) => None
    case Success(cls) =>
      if constructs(cls, OptionsFor(options, c.id), c.config) then Some(Constructed(cls, OptionsFor(options, c.id), c.config))
      else None
  }

  /** `loadAll`: the configurations' outcomes in order, failures dropped. */
  function LoadAll(configs: seq<IntegrationConfig>, options: Object, load: string -> Result<ClassId, JsError>,
                   constructs: (ClassId, Object, Object) -> bool): (r: seq<Constructed>)
    ensures |r| <= |configs|
  {
    if configs == [] then []
    else
      var rest := LoadAll(configs[1..], options, load, constructs);
      match LoadOne(configs[0], options, load, constructs)
      case None => rest
      case Some(x) => [x] + rest
  }

  /** Loading is order-preserving: the result for two lists of configurations is the two results in order. */
  lemma {:induction false} LoadAllConcat(a: seq<IntegrationConfig>, b: seq<IntegrationConfig>, options: Object,
                                         load: string -> Result<ClassId, JsError>, constructs: (ClassId, Object, Object) -> bool)
    ensures LoadAll(a + b, options, load, constructs) == LoadAll(a, options, load, constructs) + LoadAll(b, options, load, constructs)
  {
    if a == [] {
      assert a + b == b;
    } else {
      assert (a + b)[0] == a[0];
      assert (a + b)[1..] == a[1..] + b;
      LoadAllConcat(a[1..], b, options, load, constructs);
    }
  }

  /** When nothing fails, every configuration yields its integration, in order. */
  lemma {:induction false} LoadAllKeepsEvery(configs: seq<IntegrationConfig>, options: Object,
                                             load: string -> Result<ClassId, JsError>, constructs: (ClassId, Object, Object) -> bool)
    requires forall i :: 0 <= i < |configs| ==> LoadOne(configs[i], options, load, constructs).Some?
    ensures |LoadAll(configs, options, load, constructs)| == |configs|
    ensures forall i :: 0 <= i < |configs| ==> LoadOne(configs[i], options, load, constructs) == Some(LoadAll(configs, options, load, constructs)[i])
  {
    if configs != [] {
      var rest := LoadAll(configs[1..], options, load, constructs);
      LoadAllKeepsEvery(configs[1..], options, load, constructs);
      var r := LoadAll(configs, options, load, constructs);
      assert r == [LoadOne(configs[0], options, load, constructs).value] + rest;
      forall i | 1 <= i < |configs|
        ensures LoadOne(configs[i], options, load, constructs) == Some(r[i])
      {
        assert configs[1..][i - 1] == configs[i];
      }
    }
  }

  /** A configuration whose load or construction fails contributes nothing. */
  lemma {:induction false} LoadAllDropsFailures(configs: seq<IntegrationConfig>, options: Object,
                                                load: string -> Result<ClassId, JsError>, constructs: (ClassId, Object, Object) -> bool)
    requires forall i :: 0 <= i < |configs| ==> LoadOne(configs[i], options, load, constructs).None?
    ensures LoadAll(configs, options, load, constructs) == []
  {
    if configs != [] {
      LoadAllDropsFailures(configs[1..], options, load, constructs);
    }
  }

  /** Every integration `loadAll` returns is the outcome of one of the configurations. */
  lemma {:induction false} LoadAllFromConfigs(configs: seq<IntegrationConfig>, options: Object,
                                              load: string -> Result<ClassId, JsError>, constructs: (ClassId, Object, Object) -> bool,
                                              x: Constructed)
    requires x in LoadAll(configs, options, load, constructs)
    ensures exists i :: 0 <= i < |configs| && LoadOne(configs[i], options, load, constructs) == Some(x)
  {
    var one := LoadOne(configs[0], options, load, constructs);
    if one == Some(x) {
      assert LoadOne(configs[0], options, load, constructs) == Some(x);
    } else {
      assert x in LoadAll(configs[1..], options, load, constructs);
      LoadAllFromConfigs(configs[1..], options, load, constructs, x);
      var i :| 0 <= i < |configs[1..]| && LoadOne(configs[1..][i], options, load, constructs) == Some(x);
      assert LoadOne(configs[i + 1], options, load, constructs) == Some(x);
    }
  }
}

=== FILE: luxor.dfy ===
/**
 * src/integrations/luxor/index.ts: the Luxor lighting integration. It
 * classifies the controller by its name, records the class in its state,
 * and serves one command route, `luxor/cid/<controllerId>/cmd`, whose
 * commands switch every light group off or on.
 *
 * The integration is an `Integrations.Integration` (the `base` field) plus
 * the API client it creates in `init`; API requests are a log of calls.
 */
module Luxor {
  import opened Wrappers
  import opened Text
  import opened JsonValue
  import opened Topics
  import opened StateDoc
  import opened Integrations

  /** `ControllerType`, whose members number 0 to 3 in this order. */
  datatype ControllerType = Zd | Zdc | ZdTwo | UnknownController

  function Ordinal(t: ControllerType): (n: nat)
    ensures n < 4
  {
    match t
    case Zd => 0
    case Zdc => 1
    case ZdTwo => 2
    case UnknownController => 3
  }

  lemma OrdinalInjective(a: ControllerType, b: ControllerType)
    requires Ordinal(a) == Ordinal(b)
    ensures a == b
  {
  }

  /** `name.substring(0, 5)`. */
  function Prefix5(name: string): (p: string)
    ensures |p| == if |name| < 5 then |name| else 5
    ensures StartsWith(name, p)
  {
    if |name| < 5 then name else name[..5]
  }

  /** `controllerTypeFromName`: by the first five characters, case-sensitively. */
  function ControllerTypeFromName(name: string): (t: ControllerType)
    ensures t == Zd <==> StartsWith(name, "luxor")
    ensures t == Zdc <==> StartsWith(name, "lxzdc")
    ensures t == ZdTwo <==> StartsWith(name, "lxtwo")
  {
    if Prefix5(name) == "luxor" then Zd
    else if Prefix5(name) == "lxzdc" then Zdc
    else if Prefix5(name) == "lxtwo" then ZdTwo
    else UnknownController
  }

  /** Names shorter than five characters are never recognised. */
  lemma ShortNamesAreUnknown(name: string)
    requires |name| < 5
    ensures ControllerTypeFromName(name) == UnknownController
  {
  }

  /** Only the first five characters count. */
  lemma ClassifiedByPrefix(name: string, suffix: string)
    requires |name| >= 5
    ensures ControllerTypeFromName(name + suffix) == ControllerTypeFromName(name)
  {
    assert (name + suffix)[..5] == name[..5];
  }

  /** Each known prefix, followed by anything, is classified as its type; the comparison is case-sensitive. */
  lemma ClassifiesKnownPrefixes(rest: string)
    ensures ControllerTypeFromName("luxor" + rest) == Zd
    ensures ControllerTypeFromName("lxzdc" + rest) == Zdc
    ensures ControllerTypeFromName("lxtwo" + rest) == ZdTwo
    ensures ControllerTypeFromName("LUXOR" + rest) == UnknownController
  {
    assert ("luxor" + rest)[..5] == "luxor";
    assert ("lxzdc" + rest)[..5] == "lxzdc";
    assert ("lxtwo" + rest)[..5] == "lxtwo";
    assert ("LUXOR" + rest)[..5] == "LUXOR";
  }

  /** A request the integration makes through its API client. */
  datatype ApiCall = GetControllerName | ExtinguishAll | IlluminateAll

  /** The API client `init` creates, with the configured host (`undefined` when missing). */
  datatype Api = Api(host: Option<Value>)

  /** Why the command callback throws. */
  datatype CommandError =
    | UnknownCommand(name: string)
    /** `this.#api!` before `init` has created the client. */
    | MissingApi

  /** The request a system command makes, or why it throws. */
  function SystemCommandOutcome(hasApi: bool, name: string): (r: Result<ApiCall, CommandError>)
    ensures name == "extinguish_all" && hasApi ==> r == Success(ExtinguishAll)
    ensures name == "illuminate_all" && hasApi ==> r == Success(IlluminateAll)
    ensures name != "extinguish_all" && name != "illuminate_all" ==> r == Failure(UnknownCommand(name))
    ensures (name == "extinguish_all" || name == "illuminate_all") && !hasApi ==> r == Failure(MissingApi)
  {
    if name == "extinguish_all" then (if hasApi then Success(ExtinguishAll) else Failure(MissingApi))
    else if name == "illuminate_all" then (if hasApi then Success(IlluminateAll) else Failure(MissingApi))
    else Failure(UnknownCommand(name))
  }

  /** The command route's pattern: `${topicPrefix}/cid/<controllerId>/cmd`. */
  function CommandPattern(): string {
    OneParamPattern("luxor/cid", "controllerId", "cmd")
  }

  /** `onSystemCommand`, by identity. */
  const SystemCommand: CallbackId := 0

  lemma CommandPatternText()
    ensures CommandPattern() == "luxor/cid/<controllerId>/cmd"
  {
  }

  lemma LuxorPlainParts()
    ensures Plain("luxor/cid") && Plain("cmd")
  {
    assert "luxor/cid"[5] == '/' && "luxor/cid"[6] == 'c';
  }

  /** The command route compiles to one capture, `controllerId`, and subscribes to `luxor/cid/+/cmd`. */
  lemma CommandRouteTopic()
    ensures SubscriptionTopic(CommandPattern()) == "luxor/cid" + "/+/" + "cmd"
    ensures ParamNames(Compile(CommandPattern())) == ["controllerId"]
  {
    LuxorPlainParts();
    CompileOneParam("luxor/cid", "controllerId", "cmd");
  }

  lemma ControllerIdIsGroupName()
    ensures ValidGroupName("controllerId")
  {
    var n := "controllerId";
    assert forall i :: 1 <= i < |n| ==> IdPart(n[i]);
  }

  /** `new RegExp` accepts the compiled command route, so `routeCommand` succeeds. */
  lemma CommandRouteAccepted()
    ensures RegexAccepts(Compile(CommandPattern()))
  {
    CommandRouteTopic();
    ControllerIdIsGroupName();
  }

  /**
   * How a command on the route ends: the wrapper reports to the error topic
   * exactly when the message does not parse or the command is not one the
   * controller knows (or the client is missing).
   */
  lemma CommandReportsErrors(route: Route, info: RouteInfo, message: string,
                             parse: string -> Option<Command>, hasApi: bool)
    requires route.handler == CommandHandler(SystemCommand)
    ensures var d := Dispatch(route, info, message, parse,
                              (c: Call) => c.CommandCall? && SystemCommandOutcome(hasApi, c.cmd.name).Failure?);
      d.1 != [] <==> parse(message).None? || SystemCommandOutcome(hasApi, parse(message).value.name).Failure?
  {
  }

  class LuxorIntegration {
    const base: Integration
    /** `#api`. */
    var api: Option<Api>
    /** Requests made through `api`, oldest first. */
    var apiCalls: seq<ApiCall>

    /** `new LuxorIntegration(...)`: `this.constructor.name` is `LuxorIntegration`. */
    constructor(base: Integration)
      requires base.className == "LuxorIntegration"
      ensures this.base == base && this.base.className == "LuxorIntegration"
      ensures api == None && apiCalls == []
    {
      this.base := base;
      api := None;
      apiCalls := [];
    }

    /**
     * `init`: creates the client, asks the controller for its name (which
     * may fail, leaving the state and routes alone), stores the controller
     * type, and registers the command route.
     */
    method Init(controllerName: Result<string, string>) returns (r: Result<(), string>)
      modifies this, base, base.store
      ensures api == Some(Api(if "host" in base.config then Some(base.config["host"]) else None))
      ensures apiCalls == old(apiCalls) + [GetControllerName]
      ensures r.Success? <==> controllerName.Success?
      ensures controllerName.Failure? ==>
        && base.routes == old(base.routes) && base.mqtt == old(base.mqtt) && base.store.doc == old(base.store.doc)
        && base.store.file == old(base.store.file) && base.store.writes == old(base.store.writes)
      ensures controllerName.Success? ==>
        && base.store.doc == StateDoc.SetState(old(base.store.doc), base.className,
             map["controllerType" := Num(Ordinal(ControllerTypeFromName(controllerName.value)))])
        && base.store.file == Some(base.store.serialize(base.store.doc))
        && base.store.writes == old(base.store.writes) + [base.store.serialize(base.store.doc)]
        && base.routes == old(base.routes) + [Route(CommandPattern(), Compile(CommandPattern()), SubscriptionTopic(CommandPattern()), CommandHandler(SystemCommand))]
        && base.mqtt == old(base.mqtt) + [SubscribeCall(SubscriptionTopic(CommandPattern()))]
      ensures base.calls == old(base.calls)
    {
      api := Some(Api(if "host" in base.config then Some(base.config["host"]) else None));
      apiCalls := apiCalls + [GetControllerName];
      if controllerName.Failure? {
        return Failure(controllerName.error);
      }
      base.SetState(map["controllerType" := Num(Ordinal(ControllerTypeFromName(controllerName.value)))]);
      CommandRouteAccepted();
      var routed := base.RouteCommand(CommandPattern(), SystemCommand);
      r := Success(());
    }

    /**
     * `onSystemCommand`: `extinguish_all` and `illuminate_all` each make one
     * request (not awaited, so its failure does not reach the caller); any
     * other name throws `UnknownCommand` without a request.
     */
    method OnSystemCommand(cmd: Command) returns (r: Result<(), CommandError>)
      modifies this
      ensures SystemCommandOutcome(api.Some?, cmd.name).Success? <==> r.Success?
      ensures r.Success? ==> apiCalls == old(apiCalls) + [SystemCommandOutcome(api.Some?, cmd.name).value]
      ensures r.Failure? ==> apiCalls == old(apiCalls) && r.error == SystemCommandOutcome(api.Some?, cmd.name).error
      ensures api == old(api)
    {
      match cmd.name
      case "extinguish_all" =>
        if api.None? { return Failure(MissingApi); }
        apiCalls := apiCalls + [ExtinguishAll];
        r := Success(());
      case "illuminate_all" =>
        if api.None? { return Failure(MissingApi); }
        apiCalls := apiCalls + [IlluminateAll];
        r := Success(());
      case _ =>
        r := Failure(UnknownCommand(cmd.name));
    }
  }
}

=== FILE: luxor_api.dfy ===
/**
 * The logic of src/integrations/luxor/api.ts: the controller's status-code
 * table and the way `request` turns a failed HTTP call into a
 * `LuxorApiError`. The HTTP client itself is not part of this model.
 */
module LuxorApi {
  import opened Wrappers
  import opened Text
  import opened JsonValue
  import opened Errors

  /** `getStatus`: the controller's result codes and their meaning. */
  function GetStatus(code: int): (message: string)
    ensures code !in StatusCodes ==> message == "Unknown status"
  {
    match code
    case 0 => "Ok"
    case 1 => "Unknown Method"
    case 101 => "Unparseable Request"
    case 102 => "Invalid Request"
    case 151 => "Color Value Out of Range"
    case 201 => "Precondition Failed"
    case 202 => "Group Name In Use"
    case 205 => "Group Number In Use"
    case 241 => "Item Does Not Exist"
    case 242 => "Bad Group Number"
    case 243 => "Theme Index Out Of Range"
    case 251 => "Bad Theme Index"
    case 252 => "Theme Changes Restricted"
    case _ => "Unknown status"
  }

  /** The codes `getStatus` knows. */
  const StatusCodes: set<int> := {0, 1, 101, 102, 151, 201, 202, 205, 241, 242, 243, 251, 252}

  /** Known codes have pairwise different messages, none of them the fallback. */
  lemma StatusMessagesDistinct(a: int, b: int)
    requires a in StatusCodes && b in StatusCodes && a != b
    ensures GetStatus(a) != GetStatus(b)
    ensures GetStatus(a) != "Unknown status"
  {
    match a
    case 0 => case 1 => case 101 => case 102 => case 151 => case 201 => case 202 =>
    case 205 => case 241 => case 242 => case 243 => case 251 => case 252 =>
  }

  /** JavaScript truthiness of a JSON value. */
  predicate Truthy(v: Value) {
    match v
    case Null => false
    case Bool(b) => b
    case Num(n) => n != 0
    case Str(s) => s != []
    case Arr(_) => true
    case Obj(_) => true
  }

  /** A value as a template string prints it. */
  function Display(v: Value): string
    decreases v, 1
  {
    match v
    case Null => "null"
    case Bool(b) => if b then "true" else "false"
    case Num(n) => IntToString(n)
    case Str(s) => s
    case Arr(items) => DisplayItems(v, items)
    case Obj(_) => "[object Object]"
  }

  /** `items.join(",")`, where `null` prints as the empty string. */
  function DisplayItems(whole: Value, items: seq<Value>): string
    requires forall x :: x in items ==> x < whole
    decreases whole, 0, |items|
  {
    if items == [] then ""
    else
      assert items[0] in items;
      assert forall x :: x in items[1..] ==> x in items;
      var first := if items[0].Null? then "" else Display(items[0]);
      if |items| == 1 then first else first + "," + DisplayItems(whole, items[1..])
  }

  /** `${data.message}`: the `message` field of an object, otherwise `undefined`. */
  function DataMessage(data: Value): (m: string)
    ensures data.Obj? && "message" in data.fields && data.fields["message"].Str? ==> m == data.fields["message"].s
    ensures !(data.Obj? && "message" in data.fields) ==> m == "undefined"
  {
    if data.Obj? && "message" in data.fields then Display(data.fields["message"]) else "undefined"
  }

  /** The part of an HTTP error's response the wrapper reads. `data` is `None` when undefined. */
  datatype Response = Response(status: int, data: Option<Value>)

  /** A failed request: the error axios throws and, when the server answered, its response. */
  datatype RequestFailure = RequestFailure(error: JsError, response: Option<Response>)

  /** `err.response && err.response.data`. */
  predicate HasResponseData(f: RequestFailure)
    ensures HasResponseData(f) <==>
      f.response.Some? && f.response.value.data.Some? && f.response.value.data.value !in {Null, Bool(false), Num(0), Str("")}
  {
    f.response.Some? && f.response.value.data.Some? && Truthy(f.response.value.data.value)
  }

  /** The message a wrapped failure carries. */
  function HttpMessage(r: Response): (m: string)
    requires r.data.Some?
    ensures StartsWith(m, "HTTP " + IntToString(r.status) + ": ")
    ensures EndsWith(m, DataMessage(r.data.value))
  {
    "HTTP " + IntToString(r.status) + ": " + DataMessage(r.data.value)
  }

  /**
   * The error `request` throws for a failed call: a `LuxorApiError` around
   * the original when the response carries data, the original itself
   * otherwise. `capturedStack` is the stack recorded at construction.
   */
  function RequestError(f: RequestFailure, capturedStack: string): (e: JsError)
    ensures HasResponseData(f) ==>
      && e.name == "LuxorApiError" && e.original == Some(f.error)
      && e.message == HttpMessage(f.response.value)
      && e.stack.Some? && EndsWith(e.stack.value, "\n" + StackText(f.error.stack))
    ensures !HasResponseData(f) ==> e == f.error
  {
    if HasResponseData(f) then
      RethrownError("LuxorApiError", HttpMessage(f.response.value), Some(f.error), capturedStack).value
    else
      f.error
  }

  /** A wrapped error's message starts with `HTTP <status>: `. */
  lemma WrappedMessageNamesStatus(f: RequestFailure, capturedStack: string)
    requires HasResponseData(f)
    ensures StartsWith(RequestError(f, capturedStack).message, "HTTP " + IntToString(f.response.value.status) + ": ")
  {
    var p := "HTTP " + IntToString(f.response.value.status) + ": ";
    assert HttpMessage(f.response.value) == p + DataMessage(f.response.value.data.value);
  }
}

=== FILE: mock_store.dfy ===
/**
 * src/testutils/store.ts: the in-memory store the tests use. It merges
 * exactly as the file store does and keeps no file.
 */
module MockStores {
  import opened JsonValue
  import opened StateDoc

  class MockStore {
    /** `#state`. */
    var doc: Document

    constructor()
      ensures doc == map[]
    {
      doc := map[];
    }

    /** `init` does nothing. */
    method Init()
    {
    }

    /**
     * `setState`: creates the namespace if missing, then copies each key of
     * `update` into it, one at a time.
     */
    method SetState(ns: string, update: Namespace)
      modifies this
      ensures doc == StateDoc.SetState(old(doc), ns, update)
    {
      if ns !in doc {
        doc := doc[ns := map[]];
      }
      var remaining := update.Keys;
      MergeNothing(Lookup(old(doc), ns), update);
      while remaining != {}
        invariant remaining <= update.Keys
        invariant doc == old(doc)[ns := Merge(Lookup(old(doc), ns), update - remaining)]
        decreases remaining
      {
        var k :| k in remaining;
        MergeOneMore(Lookup(old(doc), ns), update, remaining, k);
        doc := doc[ns := doc[ns][k := update[k]]];
        remaining := remaining - {k};
      }
      assert update - remaining == update;
    }

    /** `getState`: the namespace, or `{}` when it was never written. */
    method GetState(ns: string) returns (state: Namespace)
      ensures state == Lookup(doc, ns)
    {
      state := if ns in doc then doc[ns] else map[];
    }
  }

  /**
   * The SimpliSafe setup writes `token` and later `userId` into one
   * namespace; both survive, each with its own value.
   */
  method TokenSurvivesLaterWrite(token: Value, userId: Value) returns (state: Namespace)
    ensures state == map["token" := token, "userId" := userId]
  {
    var store := new MockStore();
    store.SetState("SimpliSafeIntegration", map["token" := token]);
    store.SetState("SimpliSafeIntegration", map["userId" := userId]);
    state := store.GetState("SimpliSafeIntegration");
  }
}

=== FILE: simplisafe_event.dfy ===
/**
 * src/integrations/simplisafe/event.ts: the table from SimpliSafe event
 * CIDs to event types, and `makeEvent`, which tags a raw stream event with
 * its type or throws for a CID it does not know.
 */
module SimpliSafeEvents {
  import opened Wrappers
  import opened Text

  /** `EventType`, a numeric enum: the members number 0 to 27 in this order. */
  datatype EventType =
    | AlarmCanceled | AlarmTriggered | ArmedAway | ArmedAwayByKeypad | ArmedAwayByRemote
    | ArmedHome | AutomaticTest | AwayExitDelayByKeypad | AwayExitDelayByRemote
    | CameraMotionDetected | ConnectionLost | ConnectionRestored | DisarmedByMasterPin
    | DisarmedByRemote | DoorbellDetected | EntityTest | EntryDelay | HomeExitDelay
    | LockError | LockLocked | LockUnlocked | PowerOutage | PowerRestored
    | SecretAlertTriggered | SensorNotResponding | SensorPairedAndNamed | SensorRestored
    | UserInitiatedTest

  /** The enum's numeric value. */
  function Ordinal(t: EventType): (n: nat)
    ensures n < 28
    ensures n == 0 <==> t == AlarmCanceled
  {
    match t
    case AlarmCanceled => 0
    case AlarmTriggered => 1
    case ArmedAway => 2
    case ArmedAwayByKeypad => 3
    case ArmedAwayByRemote => 4
    case ArmedHome => 5
    case AutomaticTest => 6
    case AwayExitDelayByKeypad => 7
    case AwayExitDelayByRemote => 8
    case CameraMotionDetected => 9
    case ConnectionLost => 10
    case ConnectionRestored => 11
    case DisarmedByMasterPin => 12
    case DisarmedByRemote => 13
    case DoorbellDetected => 14
    case EntityTest => 15
    case EntryDelay => 16
    case HomeExitDelay => 17
    case LockError => 18
    case LockLocked => 19
    case LockUnlocked => 20
    case PowerOutage => 21
    case PowerRestored => 22
    case SecretAlertTriggered => 23
    case SensorNotResponding => 24
    case SensorPairedAndNamed => 25
    case SensorRestored => 26
    case UserInitiatedTest => 27
  }

  /** `EVENT_MAPPING`. */
  const EventMapping: map<int, EventType> := map[
    1110 := AlarmTriggered,
    1120 := AlarmTriggered,
    1132 := AlarmTriggered,
    1134 := AlarmTriggered,
    1154 := AlarmTriggered,
    1159 := AlarmTriggered,
    1162 := AlarmTriggered,
    1170 := CameraMotionDetected,
    1301 := PowerOutage,
    1350 := ConnectionLost,
    1381 := SensorNotResponding,
    1400 := DisarmedByMasterPin,
    1406 := AlarmCanceled,
    1407 := DisarmedByRemote,
    1409 := SecretAlertTriggered,
    1429 := EntryDelay,
    1458 := DoorbellDetected,
    1531 := SensorPairedAndNamed,
    1601 := UserInitiatedTest,
    1602 := AutomaticTest,
    1604 := EntityTest,
    3301 := PowerRestored,
    3350 := ConnectionRestored,
    3381 := SensorRestored,
    3401 := ArmedAwayByKeypad,
    3407 := ArmedAwayByRemote,
    3441 := ArmedHome,
    3481 := ArmedAway,
    3487 := ArmedAway,
    3491 := ArmedHome,
    9401 := AwayExitDelayByKeypad,
    9407 := AwayExitDelayByRemote,
    9441 := HomeExitDelay,
    9700 := LockUnlocked,
    9701 := LockLocked,
    9703 := LockError
  ]

  /** The CIDs the table lists, in its order. */
  const TableCids: seq<int> := [
    1110, 1120, 1132, 1134, 1154, 1159, 1162, 1170, 1301, 1350, 1381, 1400,
    1406, 1407, 1409, 1429, 1458, 1531, 1601, 1602, 1604, 3301, 3350, 3381,
    3401, 3407, 3441, 3481, 3487, 3491, 9401, 9407, 9441, 9700, 9701, 9703
  ]

  /** `RawEvent`: the stream's event record (numbers are modelled as integers). */
  datatype RawEvent = RawEvent(
    eventTimestamp: int,
    eventCid: int,
    zoneCid: string,
    sensorType: int,
    sensorSerial: string,
    account: string,
    userId: int,
    sid: int,
    info: string,
    pinName: string,
    sensorName: string,
    messageSubject: string,
    messageBody: string,
    eventType: string,
    timezone: int,
    locationOffset: int,
    senderId: string,
    openCount: int,
    eventId: int)

  /** `TypedEvent`: every raw field, plus `type`. */
  datatype TypedEvent = TypedEvent(raw: RawEvent, kind: EventType)

  /** `EVENT_MAPPING[cid]`, `undefined` for a CID the table lacks. */
  function TypeOf(cid: int): (r: Option<EventType>)
    ensures r.Some? <==> cid in EventMapping
    ensures r.Some? ==> r.value == EventMapping[cid]
  {
    if cid in EventMapping then Some(EventMapping[cid]) else None
  }

  function UnknownCidMessage(cid: int): string {
    "Unknown eventCid: " + IntToString(cid)
  }

  /**
   * `makeEvent` as written: `!type` rejects a missing type and also the
   * type whose enum value is 0.
   */
  function MakeEventAsWritten(e: RawEvent): (r: Result<TypedEvent, string>)
    ensures r.Success? <==> e.eventCid in EventMapping && Ordinal(EventMapping[e.eventCid]) != 0
    ensures r.Success? ==> r.value == TypedEvent(e, EventMapping[e.eventCid])
    ensures r.Failure? ==> r.error == UnknownCidMessage(e.eventCid)
  {
    var t := TypeOf(e.eventCid);
    if t.None? || Ordinal(t.value) == 0 then Failure(UnknownCidMessage(e.eventCid))
    else Success(TypedEvent(e, t.value))
  }

  /** `makeEvent` as intended: it throws only for a CID the table lacks. */
  function MakeEvent(e: RawEvent): (r: Result<TypedEvent, string>)
    ensures r.Success? <==> e.eventCid in EventMapping
    ensures r.Success? ==> r.value.raw == e && r.value.kind == EventMapping[e.eventCid]
    ensures r.Failure? ==> r.error == UnknownCidMessage(e.eventCid)
  {
    match TypeOf(e.eventCid)
    case None => Failure(UnknownCidMessage(e.eventCid))
    case Some(t) => Success(TypedEvent(e, t))
  }

  /** The table's domain is exactly its 36 listed CIDs, each listed once. */
  lemma TableDomain()
    ensures |TableCids| == 36
    ensures forall cid :: cid in EventMapping <==> cid in TableCids
  {
  }

  /** The listed CIDs ascend, so none is listed twice. */
  lemma TableAscending()
    ensures forall i, j :: 0 <= i < j < |TableCids| ==> TableCids[i] < TableCids[j]
  {
    assert forall i :: 0 <= i < |TableCids| - 1 ==> TableCids[i] < TableCids[i + 1];
    AdjacentAscending(TableCids);
  }

  lemma {:induction false} AdjacentAscending(s: seq<int>)
    requires forall i :: 0 <= i < |s| - 1 ==> s[i] < s[i + 1]
    ensures forall i, j :: 0 <= i < j < |s| ==> s[i] < s[j]
  {
    if |s| > 1 {
      AdjacentAscending(s[1..]);
      forall i, j | 0 <= i < j < |s| ensures s[i] < s[j] {
        if i > 0 { assert s[i] == s[1..][i - 1] && s[j] == s[1..][j - 1]; }
        else if j > 1 { assert s[1] == s[1..][0] && s[j] == s[1..][j - 1]; }
      }
    }
  }


  /** Only CID 1406 maps to the enum's zero value. */
  lemma OnlyAlarmCanceledIsZero(cid: int)
    requires cid in EventMapping
    ensures Ordinal(EventMapping[cid]) == 0 <==> cid == 1406
  {
  }

  /** The as-written `makeEvent` rejects CID 1406, which the table maps to `alarm_canceled`. */
  lemma AlarmCanceledIsRejected(e: RawEvent)
    requires e.eventCid == 1406
    ensures MakeEventAsWritten(e) == Failure("Unknown eventCid: 1406")
    ensures MakeEvent(e) == Success(TypedEvent(e, AlarmCanceled))
  {
    AlarmCanceledMessage();
  }

  lemma AlarmCanceledMessage()
    ensures UnknownCidMessage(1406) == "Unknown eventCid: 1406"
  {
    assert NatToString(14) == "14";
    assert NatToString(140) == "140";
    assert NatToString(1406) == "1406";
  }


  /** Apart from CID 1406, the as-written and intended `makeEvent` agree. */
  lemma MakeEventAgreesElsewhere(e: RawEvent)
    requires e.eventCid != 1406
    ensures MakeEventAsWritten(e) == MakeEvent(e)
  {
    if e.eventCid in EventMapping {
      OnlyAlarmCanceledIsZero(e.eventCid);
    }
  }

  /** The seven alarm CIDs share one type. */
  lemma AlarmCidsShareType()
    ensures TypeOf(1110) == TypeOf(1120) == TypeOf(1132) == TypeOf(1134) == TypeOf(1154) == TypeOf(1159) == TypeOf(1162) == Some(AlarmTriggered)
  {
    LowAlarmCids();
    HighAlarmCids();
  }

  lemma LowAlarmCids()
    ensures TypeOf(1110) == TypeOf(1120) == TypeOf(1132) == TypeOf(1134) == Some(AlarmTriggered)
  {
  }

  lemma HighAlarmCids()
    ensures TypeOf(1154) == TypeOf(1159) == TypeOf(1162) == Some(AlarmTriggered)
  {
  }


  /** Two CIDs each arm the system away and home. */
  lemma ArmedCidsShareTypes()
    ensures TypeOf(3481) == TypeOf(3487) == Some(ArmedAway)
    ensures TypeOf(3441) == TypeOf(3491) == Some(ArmedHome)
  {
  }




  /** The raw `eventType` string survives next to the new `type`. */
  lemma RawEventTypeKept(e: RawEvent)
    requires MakeEvent(e).Success?
    ensures MakeEvent(e).value.raw.eventType == e.eventType
    ensures MakeEvent(e).value.raw.eventCid == e.eventCid
  {
  }
}

=== FILE: state_doc.dfy ===
/**
 * The document both stores keep: a map from namespace to a flat object,
 * and the shallow merge `setState` performs on it.
 */
module StateDoc {
  import opened JsonValue

  /** One namespace: key to JSON value. */
  type Namespace = map<string, Value>

  /** The whole store: namespace to its object. */
  type Document = map<string, Namespace>

  /** `state[namespace] || {}`. */
  function Lookup(doc: Document, ns: string): (r: Namespace)
    ensures ns in doc ==> r == doc[ns]
    ensures ns !in doc ==> r == map[]
  {
    if ns in doc then doc[ns] else map[]
  }

  /** Every key of `update` takes its new value; every other key keeps its old one. */
  function Merge(current: Namespace, update: Namespace): (r: Namespace)
    ensures r.Keys == current.Keys + update.Keys
    ensures forall k :: k in update ==> r[k] == update[k]
    ensures forall k :: k in current && k !in update ==> r[k] == current[k]
  {
    current + update
  }

  /** The document after `setState(ns, update)`. */
  function SetState(doc: Document, ns: string, update: Namespace): (r: Document)
    ensures r.Keys == doc.Keys + {ns}
    ensures r[ns] == Merge(Lookup(doc, ns), update)
    ensures forall n :: n in doc && n != ns ==> r[n] == doc[n]
  {
    doc[ns := Merge(Lookup(doc, ns), update)]
  }

  /** Writing one more key of `update` extends the merge by that key. */
  lemma MergeOneMore(current: Namespace, update: Namespace, remaining: set<string>, k: string)
    requires k in remaining && remaining <= update.Keys
    ensures Merge(current, update - remaining)[k := update[k]] == Merge(current, update - (remaining - {k}))
  {
  }

  /** Before any key of `update` is written, the merge is the current namespace. */
  lemma MergeNothing(current: Namespace, update: Namespace)
    ensures Merge(current, update - update.Keys) == current
  {
    assert update - update.Keys == map[];
  }

  /** Two merges in a row: the union of both updates, the later one winning on shared keys. */
  lemma MergeTwice(current: Namespace, a: Namespace, b: Namespace)
    ensures Merge(Merge(current, a), b) == Merge(current, Merge(a, b))
  {
    var l, r := Merge(Merge(current, a), b), Merge(current, Merge(a, b));
    assert l.Keys == r.Keys;
    forall k | k in l ensures l[k] == r[k] {
      if k in b {
      } else if k in a {
      }
    }
  }

  /** Two `setState` calls on one namespace equal one call with the merged update. */
  lemma SetStateTwice(doc: Document, ns: string, a: Namespace, b: Namespace)
    ensures SetState(SetState(doc, ns, a), ns, b) == SetState(doc, ns, Merge(a, b))
    ensures Lookup(SetState(SetState(doc, ns, a), ns, b), ns).Keys == Lookup(doc, ns).Keys + a.Keys + b.Keys
  {
    var current := Lookup(doc, ns);
    MergeTwice(current, a, b);
    var once := SetState(doc, ns, a);
    assert Lookup(once, ns) == Merge(current, a);
    UpdateTwice(doc, ns, Merge(current, a), Merge(Merge(current, a), b));
  }

  lemma UpdateTwice<K, V>(m: map<K, V>, k: K, v: V, w: V)
    ensures m[k := v][k := w] == m[k := w]
  {
  }
}

=== FILE: store.dfy ===
/**
 * src/store.ts: the state store backed by one JSON file. The file system is
 * a field holding the file's contents (`None` when the file is absent), and
 * every write is also appended to a log so that "exactly one write per
 * `setState`" can be stated. `JSON.stringify` and `JSON.parse` are the
 * store's `serialize` and `parse` functions. `parse` answers `None` where
 * `JSON.parse` throws, and otherwise a document: the file is assumed to hold
 * an object whose values are objects.
 */
module FileStore {
  import opened Wrappers
  import opened Text
  import opened JsonValue
  import opened StateDoc

  /**
   * The replacement text `String.prototype.replace` inserts for one match
   * of a string pattern (GetSubstitution, section 22.1.3.19.1 of ECMA-262):
   * `$$` is `$`, `$&` the match, `` $` `` the text before it, `$'` the text
   * after it; a string pattern has no captures, so any other `$` is literal.
   */
  function Substitute(replacement: string, matched: string, before: string, after: string): (r: string)
    ensures replacement == [] ==> r == []
    ensures replacement != [] && replacement[0] != '$' ==> r != [] && r[0] == replacement[0]
    decreases |replacement|
  {
    if replacement == [] then []
    else if replacement[0] == '$' && |replacement| >= 2 && replacement[1] in "$&`'" then
      var piece := match replacement[1]
        case '$' => "$"
        case '&' => matched
        case '`' => before
        case _ => after;
      piece + Substitute(replacement[2..], matched, before, after)
    else [replacement[0]] + Substitute(replacement[1..], matched, before, after)
  }

  /**
   * Each pattern at the front of the replacement expands as GetSubstitution
   * says, and the rest is substituted in turn; a `$` before any other
   * character, and every character other than `$`, is copied.
   */
  lemma SubstitutePatterns(rest: string, matched: string, before: string, after: string, c: char)
    ensures Substitute("$$" + rest, matched, before, after) == "$" + Substitute(rest, matched, before, after)
    ensures Substitute("$&" + rest, matched, before, after) == matched + Substitute(rest, matched, before, after)
    ensures Substitute("$`" + rest, matched, before, after) == before + Substitute(rest, matched, before, after)
    ensures Substitute("$'" + rest, matched, before, after) == after + Substitute(rest, matched, before, after)
    ensures c !in "$&`'" ==>
      Substitute(['$', c] + rest, matched, before, after) == "$" + Substitute([c] + rest, matched, before, after)
    ensures c != '$' ==> Substitute([c] + rest, matched, before, after) == [c] + Substitute(rest, matched, before, after)
  {
    assert ("$$" + rest)[2..] == rest && ("$&" + rest)[2..] == rest;
    assert ("$`" + rest)[2..] == rest && ("$'" + rest)[2..] == rest;
    assert (['$', c] + rest)[1..] == [c] + rest;
    assert ([c] + rest)[1..] == rest;
  }

  /** A replacement without `$` is inserted as it is. */
  lemma {:induction false} SubstituteLiteral(replacement: string, matched: string, before: string, after: string)
    requires '$' !in replacement
    ensures Substitute(replacement, matched, before, after) == replacement
    decreases |replacement|
  {
    if replacement != [] {
      assert '$' !in replacement[1..];
      SubstituteLiteral(replacement[1..], matched, before, after);
      assert replacement == [replacement[0]] + replacement[1..];
    }
  }

  /**
   * `resolvePath`: `~` alone or a leading `~/` has its `~` replaced by the
   * home directory, read as a replacement pattern; `~alias/...` and every
   * other path are returned as given.
   */
  function ResolvePath(path: string, home: string): (r: string)
    ensures path == [] ==> r == []
    ensures (path == "~" || StartsWith(path, "~/")) ==> r == Substitute(home, "~", "", path[1..]) + path[1..]
    ensures !(path == "~" || StartsWith(path, "~/")) ==> r == path
  {
    if path == [] then []
    else if path == "~" || StartsWith(path, "~/") then Substitute(home, "~", "", path[1..]) + path[1..]
    else path
  }

  /** With a home directory free of `$`, the `~` is replaced by it literally. */
  lemma ResolvePathLiteralHome(path: string, home: string)
    requires '$' !in home && (path == "~" || StartsWith(path, "~/"))
    ensures ResolvePath(path, home) == home + path[1..]
  {
    SubstituteLiteral(home, "~", "", path[1..]);
  }

  /** A home directory holding `$&` puts the `~` back: `~` resolves to `/h/~` under `/h/$&`. */
  lemma HomeWithMatchPattern()
    ensures ResolvePath("~", "/h/$&") == "/h/~"
  {
    var home := "/h/$&";
    assert home[1..] == "h/$&" && home[2..] == "/$&" && home[3..] == "$&" && home[3..][2..] == [];
    assert Substitute(home[3..], "~", "", "") == "~";
  }

  /**
   * Resolving twice is resolving once, when the home directory is itself
   * resolved and does not start with a `$` pattern.
   */
  lemma ResolvePathIdempotent(path: string, home: string)
    requires home == [] || (home[0] != '~' && home[0] != '$')
    ensures ResolvePath(ResolvePath(path, home), home) == ResolvePath(path, home)
  {
    var r := ResolvePath(path, home);
    if path == "~" || StartsWith(path, "~/") {
      var after := path[1..];
      if home == [] {
        assert r == after;
        assert after == [] || after[0] == '/';
      } else {
        assert r[0] == home[0];
      }
    }
  }

  /** The default location of the state file. */
  const DefaultPath := "~/.cache/homeline.json"

  /** What `loadState` does to the document, given the file's contents. */
  function Loaded(contents: Option<string>, current: Document, parse: string -> Option<Document>): (r: Result<Document, string>)
    ensures contents.None? ==> r == Success(current)
    ensures contents.Some? && parse(contents.value).Some? ==> r == Success(parse(contents.value).value)
    ensures contents.Some? && parse(contents.value).None? ==> r.Failure?
  {
    match contents
    case None => Success(current)
    case Some(text) =>
      match parse(text)
      case None => Failure("SyntaxError")
      case Some(doc) => Success(doc)
  }

  /** With a parser that reads back what the serialiser writes, a saved document loads unchanged. */
  lemma SaveThenLoad(serialize: Document -> string, parse: string -> Option<Document>, saved: Document, current: Document)
    requires parse(serialize(saved)) == Some(saved)
    ensures Loaded(Some(serialize(saved)), current, parse) == Success(saved)
  {
  }

  class Store {
    /** The resolved file path. */
    const path: string
    const serialize: Document -> string
    const parse: string -> Option<Document>
    /** `#state`. */
    var doc: Document
    /** The file at `path`: its contents, or `None` when it does not exist. */
    var file: Option<string>
    /** Every document written to `path`, oldest first. */
    var writes: seq<string>

    /** `new Store(filepath?)`: a missing path is the default one. */
    constructor(path: Option<string>, home: string, file: Option<string>,
                serialize: Document -> string, parse: string -> Option<Document>)
      ensures path.Some? ==> this.path == ResolvePath(path.value, home)
      ensures path.None? ==> this.path == ResolvePath("~/.cache/homeline.json", home)
      ensures doc == map[] && this.file == file && writes == []
      ensures this.serialize == serialize && this.parse == parse
    {
      var given := if path.Some? then path.value else DefaultPath;
      this.path := ResolvePath(given, home);
      this.serialize := serialize;
      this.parse := parse;
      doc := map[];
      this.file := file;
      writes := [];
    }

    /**
     * `init`: a missing directory is created; an existing one that is not
     * writable is an error; then the file, if present, is loaded.
     */
    method Init(dirExists: bool, dirWritable: bool) returns (r: Result<(), string>)
      modifies this
      ensures dirExists && !dirWritable ==> r == Failure("No write access to " + path) && doc == old(doc)
      ensures !(dirExists && !dirWritable) ==> Loaded(file, old(doc), parse).Success? == r.Success?
      ensures !(dirExists && !dirWritable) && r.Success? ==> doc == Loaded(file, old(doc), parse).value
      ensures r.Failure? ==> doc == old(doc)
      ensures file == old(file) && writes == old(writes)
    {
      if dirExists && !dirWritable {
        return Failure("No write access to " + path);
      }
      r := LoadState();
    }

    /** `loadState`: an absent file leaves the document alone; a present one replaces it by its parse. */
    method LoadState() returns (r: Result<(), string>)
      modifies this
      ensures r.Success? <==> Loaded(file, old(doc), parse).Success?
      ensures r.Success? ==> doc == Loaded(file, old(doc), parse).value
      ensures r.Failure? ==> doc == old(doc)
      ensures file == old(file) && writes == old(writes)
    {
      match Loaded(file, doc, parse)
      case Failure(e) => r := Failure(e);
      case Success(d) => doc := d; r := Success(());
    }

    /** `saveState`: the whole document is written to the file. */
    method SaveState()
      modifies this
      ensures file == Some(serialize(doc)) && writes == old(writes) + [serialize(doc)]
      ensures doc == old(doc)
    {
      file := Some(serialize(doc));
      writes := writes + [serialize(doc)];
    }

    /**
     * `setState`: the namespace is created if missing, each key of `update`
     * is copied into it one at a time, and the document is then written
     * once.
     */
    method SetState(ns: string, update: Namespace)
      modifies this
      ensures doc == StateDoc.SetState(old(doc), ns, update)
      ensures file == Some(serialize(doc)) && writes == old(writes) + [serialize(doc)]
    {
      if ns !in doc {
        doc := doc[ns := map[]];
      }
      var remaining := update.Keys;
      MergeNothing(Lookup(old(doc), ns), update);
      while remaining != {}
        invariant remaining <= update.Keys
        invariant doc == old(doc)[ns := Merge(Lookup(old(doc), ns), update - remaining)]
        invariant writes == old(writes)
        decreases remaining
      {
        var k :| k in remaining;
        MergeOneMore(Lookup(old(doc), ns), update, remaining, k);
        doc := doc[ns := doc[ns][k := update[k]]];
        remaining := remaining - {k};
      }
      assert update - remaining == update;
      SaveState();
    }

    /** `getState`: what the callback receives, the namespace or `{}`. */
    method GetState(ns: string) returns (state: Namespace)
      ensures state == Lookup(doc, ns)
    {
      state := if ns in doc then doc[ns] else map[];
    }
  }
}

=== FILE: text.dfy ===
/**
 * String helpers shared by the model: ASCII case folding (the part of
 * JavaScript's `toLowerCase` and of a regular expression's `i` flag that the
 * model covers), `split`/`join` on one separator character, and decimal
 * rendering of integers as JavaScript's template strings print them.
 */
module Text {

  /** Maps 'A'..'Z' to 'a'..'z' and leaves every other character alone. */
  function FoldCase(c: char): (d: char)
    ensures 'A' <= c <= 'Z' ==> d as int == c as int + 32
    ensures !('A' <= c <= 'Z') ==> d == c
    ensures !('A' <= d <= 'Z')
  {
    if 'A' <= c <= 'Z' then (c as int + 32) as char else c
  }

  /** `s.toLowerCase()`, restricted to ASCII letters. */
  function ToLower(s: string): (r: string)
    ensures |r| == |s|
    ensures forall i :: 0 <= i < |s| ==> r[i] == FoldCase(s[i])
  {
    if s == [] then [] else [FoldCase(s[0])] + ToLower(s[1..])
  }

  predicate StartsWith(s: string, prefix: string) {
    |prefix| <= |s| && s[..|prefix|] == prefix
  }

  predicate EndsWith(s: string, suffix: string) {
    |suffix| <= |s| && s[|s| - |suffix|..] == suffix
  }

  lemma AppendAssoc<T>(x: seq<T>, y: seq<T>, z: seq<T>)
    ensures (x + y) + z == x + (y + z)
  {
  }

  lemma EndsWithAppended(s: string, suffix: string)
    ensures EndsWith(s + suffix, suffix)
  {
    assert (s + suffix)[|s|..] == suffix;
  }

  /** Number of occurrences of `c` in `s`. */
  function CountChar(s: string, c: char): nat {
    if s == [] then 0 else (if s[0] == c then 1 else 0) + CountChar(s[1..], c)
  }

  lemma {:induction false} CountCharConcat(a: string, b: string, c: char)
    ensures CountChar(a + b, c) == CountChar(a, c) + CountChar(b, c)
  {
    if a == [] {
      assert a + b == b;
    } else {
      assert (a + b)[0] == a[0] && (a + b)[1..] == a[1..] + b;
      CountCharConcat(a[1..], b, c);
    }
  }

  /** `s.split(sep)` for a one-character separator: never empty, parts free of `sep`. */
  function Split(s: string, sep: char): (parts: seq<string>)
    ensures |parts| == CountChar(s, sep) + 1
  {
    if s == [] then [""]
    else
      var rest := Split(s[1..], sep);
      if s[0] == sep then [""] + rest else [[s[0]] + rest[0]] + rest[1..]
  }

  /** `parts.join(sep)`. */
  function Join(parts: seq<string>, sep: string): string {
    if |parts| == 0 then ""
    else if |parts| == 1 then parts[0]
    else parts[0] + sep + Join(parts[1..], sep)
  }

  /** `parts.slice(0, n)`. */
  function Take<T>(parts: seq<T>, n: nat): (r: seq<T>)
    ensures |r| == if n < |parts| then n else |parts|
    ensures r == parts[..|r|]
  {
    if n < |parts| then parts[..n] else parts
  }

  lemma {:induction false} SplitPartsAvoidSeparator(s: string, sep: char)
    ensures forall i :: 0 <= i < |Split(s, sep)| ==> sep !in Split(s, sep)[i]
  {
    if s != [] {
      SplitPartsAvoidSeparator(s[1..], sep);
    }
  }

  /** Joining the parts of a split gives back the string. */
  lemma {:induction false} JoinSplit(s: string, sep: char)
    ensures Join(Split(s, sep), [sep]) == s
  {
    if s != [] {
      var rest := Split(s[1..], sep);
      JoinSplit(s[1..], sep);
      if s[0] == sep {
        assert Split(s, sep) == [""] + rest;
        assert ([""] + rest)[1..] == rest;
        assert s == [sep] + s[1..];
      } else {
        var parts := [[s[0]] + rest[0]] + rest[1..];
        assert Split(s, sep) == parts;
        if |rest| == 1 {
          assert s == [s[0]] + s[1..];
        } else {
          assert parts[1..] == rest[1..];
          assert Join(rest, [sep]) == rest[0] + [sep] + Join(rest[1..], [sep]);
          assert s == [s[0]] + s[1..];
        }
      }
    }
  }

  /** Splitting across one separator splits each side on its own. */
  lemma {:induction false} SplitConcat(a: string, sep: char, b: string)
    ensures Split(a + [sep] + b, sep) == Split(a, sep) + Split(b, sep)
  {
    var s := a + [sep] + b;
    if a == [] {
      assert s[0] == sep && s[1..] == b;
    } else {
      assert s[0] == a[0] && s[1..] == a[1..] + [sep] + b;
      SplitConcat(a[1..], sep, b);
      SplitConcatStep(a[0], Split(a[1..], sep), Split(b, sep), sep);
    }
  }

  /** The step of `SplitConcat`: prepending a character commutes with appending parts. */
  lemma SplitConcatStep(c: char, ra: seq<string>, rb: seq<string>, sep: char)
    requires |ra| >= 1
    ensures (if c == sep then [""] + (ra + rb) else [[c] + (ra + rb)[0]] + (ra + rb)[1..])
      == (if c == sep then [""] + ra else [[c] + ra[0]] + ra[1..]) + rb
  {
    if c != sep {
      assert (ra + rb)[0] == ra[0];
      assert (ra + rb)[1..] == ra[1..] + rb;
    }
  }

  lemma {:induction false} SplitOfPlain(p: string, sep: char)
    requires sep !in p
    ensures Split(p, sep) == [p]
  {
    if p != [] {
      SplitOfPlain(p[1..], sep);
      assert [p[0]] + p[1..] == p;
    }
  }

  /** Splitting a join of separator-free parts gives back the parts. */
  lemma {:induction false} SplitJoin(parts: seq<string>, sep: char)
    requires |parts| >= 1
    requires forall i :: 0 <= i < |parts| ==> sep !in parts[i]
    ensures Split(Join(parts, [sep]), sep) == parts
  {
    if |parts| == 1 {
      SplitOfPlain(parts[0], sep);
    } else {
      SplitJoin(parts[1..], sep);
      SplitConcat(parts[0], sep, Join(parts[1..], [sep]));
      SplitOfPlain(parts[0], sep);
      assert [parts[0]] + parts[1..] == parts;
    }
  }

  function DigitChar(d: nat): (c: char)
    requires d < 10
    ensures '0' <= c <= '9' && DigitValue(c) == d
  {
    ('0' as int + d) as char
  }

  /** The value of a decimal digit character (0 for any other character). */
  function DigitValue(c: char): nat {
    if '0' <= c <= '9' then c as int - '0' as int else 0
  }

  /** The number a string of decimal digits denotes, most significant first. */
  function DigitsValue(s: string): nat {
    if s == [] then 0 else 10 * DigitsValue(s[..|s| - 1]) + DigitValue(s[|s| - 1])
  }

  /** Decimal rendering of a natural number, without leading zeros. */
  function NatToString(n: nat): (r: string)
    ensures |r| >= 1
    ensures forall i :: 0 <= i < |r| ==> '0' <= r[i] <= '9'
    ensures |r| > 1 ==> r[0] != '0'
    ensures DigitsValue(r) == n
  {
    if n < 10 then [DigitChar(n)]
    else
      var high := NatToString(n / 10);
      assert (high + [DigitChar(n % 10)])[..|high|] == high;
      high + [DigitChar(n % 10)]
  }

  /** `${n}` for an integral JavaScript number. */
  function IntToString(n: int): (r: string)
    ensures |r| >= 1
    ensures (n < 0) == (r[0] == '-')
    ensures n >= 0 ==> DigitsValue(r) == n
    ensures n < 0 ==> DigitsValue(r[1..]) == -n
  {
    if n < 0 then
      assert ("-" + NatToString(-n))[1..] == NatToString(-n);
      "-" + NatToString(-n)
    else NatToString(n)
  }

  /** Different numbers print differently. */
  lemma IntToStringInjective(a: int, b: int)
    ensures IntToString(a) == IntToString(b) <==> a == b
  {
    if IntToString(a) == IntToString(b) {
      assert (a < 0) == (b < 0);
    }
  }

  /** A character that does not occur is counted zero times. */
  lemma {:induction false} CountCharAbsent(s: string, c: char)
    requires c !in s
    ensures CountChar(s, c) == 0
  {
    if s != [] {
      assert c !in s[1..];
      CountCharAbsent(s[1..], c);
    }
  }

  /** The first `n` lines of `[c] + s`, joined, in terms of the lines of `s`. */
  lemma JoinTakeSplitCons(c: char, s: string, sep: char, n: nat)
    requires n >= 2 || (n == 1 && c != sep)
    ensures Join(Take(Split([c] + s, sep), n), [sep])
      == if c == sep then [sep] + Join(Take(Split(s, sep), n - 1), [sep])
         else [c] + Join(Take(Split(s, sep), n), [sep])
  {
    var rest := Split(s, sep);
    assert ([c] + s)[1..] == s;
    if c == sep {
      var t := Take(rest, n - 1);
      assert Take([""] + rest, n) == [""] + t;
      assert ([""] + t)[1..] == t;
    } else {
      var t := Take(rest, n);
      assert Take([[c] + rest[0]] + rest[1..], n) == [[c] + t[0]] + t[1..];
      if |t| > 1 {
        assert ([[c] + t[0]] + t[1..])[1..] == t[1..];
        AppendAssoc([c], t[0], [sep] + Join(t[1..], [sep]));
        AppendAssoc(t[0], [sep], Join(t[1..], [sep]));
        AppendAssoc([c] + t[0], [sep], Join(t[1..], [sep]));
      }
    }
  }

  /** The first `n` lines of a text keep any prefix with fewer than `n` separators. */
  lemma {:induction false} JoinTakeSplitKeepsPrefix(h: string, rest: string, sep: char, n: nat)
    requires CountChar(h, sep) < n
    ensures StartsWith(Join(Take(Split(h + rest, sep), n), [sep]), h)
  {
    if h != [] {
      var c := h[0];
      assert h + rest == [c] + (h[1..] + rest);
      if c == sep {
        JoinTakeSplitKeepsPrefix(h[1..], rest, sep, n - 1);
      } else {
        JoinTakeSplitKeepsPrefix(h[1..], rest, sep, n);
      }
      JoinTakeSplitCons(c, h[1..] + rest, sep, n);
    }
  }
}

=== FILE: topics.dfy ===
/**
 * The pure part of src/integrations/index.ts: how `route` turns a pattern
 * such as `a/<x>/b` into an MQTT subscription topic and into a matcher with
 * named captures, how a compiled matcher finds parameters in a concrete
 * topic, the error-report topic of `onCommandError`, and the canonical
 * integration name.
 *
 * The source rewrites the pattern with the global regular expression
 * `/\/\<([^\>]+)\>\//g`: scanning left to right, a `/<name>/` whose name is a
 * non-empty run of characters other than `>` is replaced, the scan resumes
 * after its closing `/`, and everything else is copied. The model scans the
 * same way with `ParamHead`.
 */
module Topics {
  import opened Wrappers
  import opened Text
  import opened JsonValue

  /** One element of a compiled route: a literal character or a named capture. */
  datatype Token = Lit(c: char) | Param(name: string)

  /** A command payload: `{ id?: string, name: string, data?: object }`. */
  datatype Command = Command(id: Option<string>, name: string, data: Option<Object>)

  // ---------------------------------------------------------------- rewriting

  /**
   * Length of the leading run of characters other than `stop`: what
   * `[^\>]+` (a parameter name) and `[^\/]+` (a capture) consume.
   */
  function RunLen(s: string, stop: char): (n: nat)
    ensures n <= |s|
    ensures forall i :: 0 <= i < n ==> s[i] != stop
    ensures n < |s| ==> s[n] == stop
  {
    if s == [] || s[0] == stop then 0 else 1 + RunLen(s[1..], stop)
  }


  /** `s` starts with `/<name>/`, the text the source's parameter expression matches. */
  predicate ParamHead(s: string) {
    && |s| >= 2 && s[0] == '/' && s[1] == '<'
    && 0 < RunLen(s[2..], '>')
    && 4 + RunLen(s[2..], '>') <= |s|
    && s[2 + RunLen(s[2..], '>')] == '>'
    && s[3 + RunLen(s[2..], '>')] == '/'
  }

  function ParamName(s: string): (name: string)
    requires ParamHead(s)
    ensures name != [] && '>' !in name
  {
    s[2..2 + RunLen(s[2..], '>')]
  }

  /** Length of the `/<name>/` at the start of `s`. */
  function ParamLength(s: string): (n: nat)
    requires ParamHead(s)
    ensures 5 <= n <= |s|
  {
    4 + RunLen(s[2..], '>')
  }

  /** `match.replace(paramRegex, "/+/")`: the MQTT subscription topic of a pattern. */
  function SubscriptionTopic(pattern: string): (topic: string)
    ensures |topic| <= |pattern|
    decreases |pattern|
  {
    if pattern == [] then []
    else if ParamHead(pattern) then "/+/" + SubscriptionTopic(pattern[ParamLength(pattern)..])
    else [pattern[0]] + SubscriptionTopic(pattern[1..])
  }

  /** Every capture is directly followed by a literal `/`, as in every compiled pattern. */
  predicate WellFormed(toks: seq<Token>) {
    forall i :: 0 <= i < |toks| && toks[i].Param? ==> i + 1 < |toks| && toks[i + 1] == Lit('/')
  }

  /**
   * The regular expression `route` builds, as tokens: each `/<name>/` becomes
   * `\/(?<name>[^\/]+)\/` and every other character stands for itself.
   */
  function Compile(pattern: string): (toks: seq<Token>)
    ensures |toks| <= |pattern|
    ensures toks == [] <==> pattern == []
    decreases |pattern|
  {
    if pattern == [] then []
    else if ParamHead(pattern) then
      [Lit('/'), Param(ParamName(pattern)), Lit('/')] + Compile(pattern[ParamLength(pattern)..])
    else
      [Lit(pattern[0])] + Compile(pattern[1..])
  }

  /** Every capture token of the compiled matcher is followed by a literal `/`. */
  lemma {:induction false} CompileWellFormed(pattern: string)
    ensures WellFormed(Compile(pattern))
    decreases |pattern|
  {
    if pattern != [] {
      var rest, head := CompileStep(pattern);
      CompileWellFormed(rest);
      WellFormedConcat(head, Compile(rest));
    }
  }

  /** Every literal of the compiled matcher is a character of the pattern. */
  lemma {:induction false} CompileLitsFromPattern(pattern: string)
    ensures forall t :: t in Compile(pattern) && t.Lit? ==> t.c in pattern
    decreases |pattern|
  {
    if pattern != [] {
      var rest, head := CompileStep(pattern);
      CompileLitsFromPattern(rest);
      forall t | t in Compile(pattern) && t.Lit? ensures t.c in pattern {
        if t in Compile(rest) {
          SuffixMember(pattern, rest, t.c);
        }
      }
    }
  }

  /** Every capture name of the compiled matcher is non-empty and holds no `>`. */
  lemma {:induction false} CompileParamNamesValid(pattern: string)
    ensures forall t :: t in Compile(pattern) && t.Param? ==> t.name != [] && '>' !in t.name
    decreases |pattern|
  {
    if pattern != [] {
      var rest, head := CompileStep(pattern);
      CompileParamNamesValid(rest);
    }
  }

  /** One step of `Compile`: the tokens for the head of the pattern, then the rest compiled. */
  lemma CompileStep(pattern: string) returns (rest: string, head: seq<Token>)
    requires pattern != []
    ensures |rest| < |pattern| && rest == pattern[|pattern| - |rest|..]
    ensures Compile(pattern) == head + Compile(rest)
    ensures head != [] && WellFormed(head) && !head[|head| - 1].Param?
    ensures forall t :: t in head && t.Lit? ==> t.c in pattern
    ensures forall t :: t in head && t.Param? ==> t.name != [] && '>' !in t.name
  {
    if ParamHead(pattern) {
      rest := pattern[ParamLength(pattern)..];
      head := [Lit('/'), Param(ParamName(pattern)), Lit('/')];
    } else {
      rest := pattern[1..];
      head := [Lit(pattern[0])];
    }
  }

  lemma WellFormedConcat(a: seq<Token>, b: seq<Token>)
    requires WellFormed(a) && WellFormed(b) && a != [] && !a[|a| - 1].Param?
    ensures WellFormed(a + b)
  {
    forall i | 0 <= i < |a + b| && (a + b)[i].Param? ensures i + 1 < |a + b| && (a + b)[i + 1] == Lit('/') {
      if i >= |a| {
        assert (a + b)[i] == b[i - |a|] && (a + b)[i + 1] == b[i + 1 - |a|];
      } else {
        assert (a + b)[i] == a[i];
        assert i + 1 < |a| && (a + b)[i + 1] == a[i + 1];
      }
    }
  }

  lemma SuffixMember<T>(s: seq<T>, suffix: seq<T>, x: T)
    requires |suffix| <= |s| && suffix == s[|s| - |suffix|..] && x in suffix
    ensures x in s
  {
    var k :| 0 <= k < |suffix| && suffix[k] == x;
    assert s[|s| - |suffix| + k] == x;
  }


  /** The tokens of a piece of literal text. */
  function Lits(s: string): seq<Token> {
    if s == [] then [] else [Lit(s[0])] + Lits(s[1..])
  }

  lemma {:induction false} LitsConcat(a: string, b: string)
    ensures Lits(a + b) == Lits(a) + Lits(b)
  {
    if a == [] {
      assert a + b == b;
    } else {
      LitsConcat(a[1..], b);
      assert (a + b)[1..] == a[1..] + b;
      assert (a + b)[0] == a[0];
    }
  }

  /** A compiled route read back as an MQTT topic filter: a capture is `+`. */
  function Render(toks: seq<Token>): string {
    if toks == [] then []
    else match toks[0]
      case Lit(c) => [c] + Render(toks[1..])
      case Param(_) => "+" + Render(toks[1..])
  }

  /** The names of the captures, in order. */
  function ParamNames(toks: seq<Token>): seq<string> {
    if toks == [] then []
    else match toks[0]
      case Lit(_) => ParamNames(toks[1..])
      case Param(n) => [n] + ParamNames(toks[1..])
  }

  /** Every name `ParamNames` reports is the name of one of the capture tokens, and back. */
  lemma {:induction false} ParamNamesAreParams(toks: seq<Token>)
    ensures forall n :: n in ParamNames(toks) <==> Param(n) in toks
  {
    if toks != [] {
      ParamNamesAreParams(toks[1..]);
      assert toks == [toks[0]] + toks[1..];
    }
  }

  // ---------------------------------------------------------------- compile: structure

  lemma {:induction false} RenderConcat(a: seq<Token>, b: seq<Token>)
    ensures Render(a + b) == Render(a) + Render(b)
  {
    if a != [] {
      RenderConcat(a[1..], b);
      assert (a + b)[0] == a[0];
      assert (a + b)[1..] == a[1..] + b;
      var h := if a[0].Lit? then [a[0].c] else "+";
      assert Render(a) == h + Render(a[1..]);
      assert Render(a + b) == h + Render(a[1..] + b);
      AppendAssoc(h, Render(a[1..]), Render(b));
    } else {
      assert a + b == b;
    }
  }

  /** A capture group renders as `/+/`. */
  lemma RenderParamGroup(name: string)
    ensures Render([Lit('/'), Param(name), Lit('/')]) == "/+/"
  {
    assert Render([Lit('/')]) == "/" by { assert [Lit('/')][1..] == []; }
    assert Render([Param(name), Lit('/')]) == "+/" by { assert [Param(name), Lit('/')][1..] == [Lit('/')]; }
    assert [Lit('/'), Param(name), Lit('/')][1..] == [Param(name), Lit('/')];
  }

  lemma {:induction false} ParamNamesConcat(a: seq<Token>, b: seq<Token>)
    ensures ParamNames(a + b) == ParamNames(a) + ParamNames(b)
  {
    if a != [] {
      ParamNamesConcat(a[1..], b);
      assert (a + b)[0] == a[0];
      assert (a + b)[1..] == a[1..] + b;
      var h := if a[0].Lit? then [] else [a[0].name];
      assert ParamNames(a) == h + ParamNames(a[1..]);
      assert ParamNames(a + b) == h + ParamNames(a[1..] + b);
      AppendAssoc(h, ParamNames(a[1..]), ParamNames(b));
    } else {
      assert a + b == b;
    }
  }

  lemma {:induction false} RenderLits(s: string)
    ensures Render(Lits(s)) == s
    ensures ParamNames(Lits(s)) == []
  {
    if s != [] {
      RenderLits(s[1..]);
      assert Lits(s)[1..] == Lits(s[1..]);
    }
  }

  /** The subscription topic is the compiled route rendered as a filter. */
  lemma {:induction false} SubscriptionIsRenderedRoute(pattern: string)
    ensures SubscriptionTopic(pattern) == Render(Compile(pattern))
    decreases |pattern|
  {
    if pattern != [] {
      if ParamHead(pattern) {
        var rest := pattern[ParamLength(pattern)..];
        var head := [Lit('/'), Param(ParamName(pattern)), Lit('/')];
        SubscriptionIsRenderedRoute(rest);
        RenderConcat(head, Compile(rest));
        RenderParamGroup(ParamName(pattern));
      } else {
        SubscriptionIsRenderedRoute(pattern[1..]);
        RenderConcat([Lit(pattern[0])], Compile(pattern[1..]));
      }
    }
  }

  /** Text in which no `/` is followed by `<` (nor ends it) cannot start a parameter. */
  predicate Plain(a: string) {
    forall i :: 0 <= i < |a| && a[i] == '/' ==> i + 1 < |a| && a[i + 1] != '<'
  }

  /** Plain text does not start a parameter, and its tail is plain again. */
  lemma PlainHead(a: string, b: string)
    requires Plain(a) && a != []
    ensures !ParamHead(a + b)
    ensures Plain(a[1..])
    ensures (a + b)[0] == a[0] && (a + b)[1..] == a[1..] + b
  {
    assert (a + b)[0] == a[0];
    if a[0] == '/' { assert (a + b)[1] == a[1]; }
    assert (a + b)[1..] == a[1..] + b;
    forall i | 0 <= i < |a[1..]| && a[1..][i] == '/' ensures i + 1 < |a[1..]| && a[1..][i + 1] != '<' {
      assert a[i + 1] == '/';
    }
  }

  lemma {:induction false} SubscriptionSkipsPlainText(a: string, b: string)
    requires Plain(a)
    ensures SubscriptionTopic(a + b) == a + SubscriptionTopic(b)
  {
    if a == [] {
      assert a + b == b;
    } else {
      PlainHead(a, b);
      SubscriptionSkipsPlainText(a[1..], b);
      assert SubscriptionTopic(a + b) == [a[0]] + SubscriptionTopic(a[1..] + b);
      AppendAssoc([a[0]], a[1..], SubscriptionTopic(b));
      assert a == [a[0]] + a[1..];
    }
  }

  lemma {:induction false} CompileSkipsPlainText(a: string, b: string)
    requires Plain(a)
    ensures Compile(a + b) == Lits(a) + Compile(b)
  {
    if a == [] {
      assert a + b == b;
    } else {
      PlainHead(a, b);
      CompileSkipsPlainText(a[1..], b);
      assert Compile(a + b) == [Lit(a[0])] + Compile(a[1..] + b);
      AppendAssoc([Lit(a[0])], Lits(a[1..]), Compile(b));
      assert Lits(a) == [Lit(a[0])] + Lits(a[1..]);
    }
  }

  /** Plain text is copied through unchanged, both by the rewrite and by the compiler. */
  lemma RewriteSkipsPlainText(a: string, b: string)
    requires Plain(a)
    ensures SubscriptionTopic(a + b) == a + SubscriptionTopic(b)
    ensures Compile(a + b) == Lits(a) + Compile(b)
  {
    SubscriptionSkipsPlainText(a, b);
    CompileSkipsPlainText(a, b);
  }

  /** `/<name>/` becomes `/+/` in the subscription and a capture named `name` in the matcher. */
  lemma RewriteReplacesParam(name: string, b: string)
    requires name != [] && '>' !in name
    ensures SubscriptionTopic("/<" + name + ">/" + b) == "/+/" + SubscriptionTopic(b)
    ensures Compile("/<" + name + ">/" + b) == [Lit('/'), Param(name), Lit('/')] + Compile(b)
  {
    var s := "/<" + name + ">/" + b;
    assert s[2..] == name + (">/" + b);
    RunLenOfName(name, ">/" + b);
    assert RunLen(s[2..], '>') == |name|;
    assert s[2 + |name|] == '>' && s[3 + |name|] == '/';
    assert ParamHead(s);
    assert s[2..2 + |name|] == name;
    assert s[ParamLength(s)..] == b;
  }

  lemma {:induction false} RunLenOfName(name: string, rest: string)
    requires '>' !in name && rest != [] && rest[0] == '>'
    ensures RunLen(name + rest, '>') == |name|
  {
    if name != [] {
      assert (name + rest)[1..] == name[1..] + rest;
      RunLenOfName(name[1..], rest);
    }
  }

  /** A pattern in which no `/<name>/` occurs is its own subscription topic. */
  lemma {:induction false} SubscriptionOfPlainPattern(pattern: string)
    requires forall i :: 0 <= i < |pattern| ==> !ParamHead(pattern[i..])
    ensures SubscriptionTopic(pattern) == pattern
    ensures Compile(pattern) == Lits(pattern)
    decreases |pattern|
  {
    if pattern != [] {
      assert !ParamHead(pattern[0..]) by { assert pattern[0..] == pattern; }
      forall i | 0 <= i < |pattern[1..]| ensures !ParamHead(pattern[1..][i..]) {
        assert pattern[1..][i..] == pattern[i + 1..];
      }
      SubscriptionOfPlainPattern(pattern[1..]);
      assert pattern == [pattern[0]] + pattern[1..];
    }
  }

  lemma Regroup5<T>(a: seq<T>, b: seq<T>, c: seq<T>, d: seq<T>, e: seq<T>)
    ensures a + (b + (c + (d + e))) == a + b + c + d + e
  {
  }

  /** The group-shaped tokens `route` emits for one `/<name>/`. */
  function Group(name: string): seq<Token> {
    [Lit('/'), Param(name), Lit('/')]
  }

  /** Plain text followed by one `/<name>/`. */
  lemma RewritePlainThenParam(a: string, name: string, b: string)
    requires Plain(a) && name != [] && '>' !in name
    ensures SubscriptionTopic(a + ("/<" + name + ">/" + b)) == a + ("/+/" + SubscriptionTopic(b))
    ensures Compile(a + ("/<" + name + ">/" + b)) == Lits(a) + (Group(name) + Compile(b))
  {
    RewriteReplacesParam(name, b);
    RewriteSkipsPlainText(a, "/<" + name + ">/" + b);
  }

  /** The text of a pattern with one parameter. */
  function OneParamPattern(head: string, name: string, tail: string): string {
    head + "/<" + name + ">/" + tail
  }

  /** A pattern with one parameter between plain text, the shape of `luxor/cid/<controllerId>/cmd`. */
  lemma CompileOneParam(head: string, name: string, tail: string)
    requires Plain(head) && Plain(tail) && name != [] && '>' !in name
    ensures SubscriptionTopic(OneParamPattern(head, name, tail)) == head + "/+/" + tail
    ensures Compile(OneParamPattern(head, name, tail)) == Lits(head) + Group(name) + Lits(tail)
    ensures ParamNames(Compile(OneParamPattern(head, name, tail))) == [name]
  {
    OneParamPatternShape(head, name, tail);
    RewriteSkipsPlainText(tail, []);
    assert tail + [] == tail;
    RewritePlainThenParam(head, name, tail);
    Regroup3(head, "/+/", tail);
    Regroup3(Lits(head), Group(name), Lits(tail));
    OneParamNames(head, name, tail);
  }

  lemma OneParamPatternShape(head: string, name: string, tail: string)
    ensures OneParamPattern(head, name, tail) == head + ("/<" + name + ">/" + tail)
  {
  }

  lemma Regroup3<T>(a: seq<T>, b: seq<T>, c: seq<T>)
    ensures a + (b + c) == a + b + c
  {
  }

  lemma OneParamNames(head: string, name: string, tail: string)
    ensures ParamNames(Lits(head) + Group(name) + Lits(tail)) == [name]
  {
    ParamNamesAfterLits(tail, []);
    assert Lits(tail) + [] == Lits(tail);
    ParamNamesAfterGroup(name, Lits(tail));
    ParamNamesAfterLits(head, Group(name) + Lits(tail));
    Regroup3(Lits(head), Group(name), Lits(tail));
  }

  /** The text of a pattern with two parameters. */
  function TwoParamPattern(head: string, first: string, middle: string, second: string, tail: string): string {
    head + "/<" + first + ">/" + middle + "/<" + second + ">/" + tail
  }

  lemma TwoParamPatternShape(head: string, first: string, middle: string, second: string, tail: string)
    ensures TwoParamPattern(head, first, middle, second, tail)
      == head + ("/<" + first + ">/" + (middle + ("/<" + second + ">/" + tail)))
  {
  }

  /**
   * A pattern with two parameters between plain text, the shape of
   * `simplisafe/uid/<userId>/sid/<systemId>/cmd`: each parameter becomes
   * `/+/` in the subscription and a capture in the matcher.
   */
  lemma CompileTwoParams(head: string, first: string, middle: string, second: string, tail: string)
    requires Plain(head) && Plain(middle) && Plain(tail)
    requires first != [] && '>' !in first && second != [] && '>' !in second
    ensures SubscriptionTopic(TwoParamPattern(head, first, middle, second, tail))
      == head + "/+/" + middle + "/+/" + tail
    ensures Compile(TwoParamPattern(head, first, middle, second, tail))
      == Lits(head) + Group(first) + Lits(middle) + Group(second) + Lits(tail)
  {
    TwoParamPatternShape(head, first, middle, second, tail);
    RewriteSkipsPlainText(tail, []);
    assert tail + [] == tail;
    RewritePlainThenParam(middle, second, tail);
    RewritePlainThenParam(head, first, middle + ("/<" + second + ">/" + tail));
    Regroup5(head, "/+/", middle, "/+/", tail);
    Regroup5(Lits(head), Group(first), Lits(middle), Group(second), Lits(tail));
  }

  lemma SimpliSafePlainParts()
    ensures Plain("simplisafe/uid") && Plain("sid") && Plain("cmd")
  {
    assert "simplisafe/uid"[10] == '/' && "simplisafe/uid"[11] == 'u';
  }

  /** The SimpliSafe command route subscribes to `simplisafe/uid/+/sid/+/cmd`. */
  lemma SimpliSafeCommandRoute()
    ensures SubscriptionTopic(TwoParamPattern("simplisafe/uid", "userId", "sid", "systemId", "cmd"))
      == "simplisafe/uid" + "/+/" + "sid" + "/+/" + "cmd"
  {
    SimpliSafePlainParts();
    CompileTwoParams("simplisafe/uid", "userId", "sid", "systemId", "cmd");
  }

  lemma SimpliSafePatternText()
    ensures TwoParamPattern("simplisafe/uid", "userId", "sid", "systemId", "cmd") == "simplisafe/uid/<userId>/sid/<systemId>/cmd"
  {
  }

  /** A parameter needs a `/` on both sides: a trailing `/<name>` stays as written. */
  lemma TrailingParamIsText(a: string, name: string)
    requires Plain(a) && '/' !in name && '>' !in name
    ensures SubscriptionTopic(a + ("/<" + name + ">")) == a + ("/<" + name + ">")
    ensures Compile(a + ("/<" + name + ">")) == Lits(a + ("/<" + name + ">"))
  {
    var p := "/<" + name + ">";
    RewriteSkipsPlainText(a, p);
    TrailingParamAlone(name);
    LitsConcat(a, p);
  }

  /** `/<name>` with nothing after it is not a parameter: both outputs keep it as text. */
  lemma TrailingParamAlone(name: string)
    requires '/' !in name && '>' !in name
    ensures SubscriptionTopic("/<" + name + ">") == "/<" + name + ">"
    ensures Compile("/<" + name + ">") == Lits("/<" + name + ">")
  {
    var p := "/<" + name + ">";
    var q := "<" + name + ">";
    assert p[2..] == name + ">";
    RunLenOfName(name, ">");
    assert !ParamHead(p);
    assert p == ['/'] + q && p[1..] == q;
    PlainBracketed(name);
    RewriteSkipsPlainText(q, []);
    assert q + [] == q;
  }

  lemma PlainBracketed(name: string)
    requires '/' !in name
    ensures Plain("<" + name + ">")
  {
    var q := "<" + name + ">";
    forall i | 0 <= i < |q| ensures q[i] != '/' {
      if 1 <= i <= |name| { assert q[i] == name[i - 1]; }
    }
  }


  // ---------------------------------------------------------------- matching


  /** What `[^\/]+` captures: a non-empty run without `/`. */
  predicate ValidCapture(c: string) {
    c != [] && '/' !in c
  }

  /**
   * The compiled route fits the start of `s`, capturing `caps`. Literals
   * compare under the `i` flag; the expression is not anchored at the end.
   */
  predicate FitsPrefix(toks: seq<Token>, s: string, caps: seq<string>)
    decreases |toks|
  {
    if toks == [] then caps == []
    else match toks[0]
      case Lit(c) => s != [] && FoldCase(s[0]) == FoldCase(c) && FitsPrefix(toks[1..], s[1..], caps)
      case Param(_) =>
        && caps != [] && ValidCapture(caps[0]) && StartsWith(s, caps[0])
        && FitsPrefix(toks[1..], s[|caps[0]|..], caps[1..])
  }

  /**
   * The matcher run at one offset: literals compared case-insensitively,
   * each capture the longest run without `/` (what the greedy `[^\/]+`
   * settles on, since every capture is followed by a literal `/`).
   */
  function Captures(toks: seq<Token>, s: string): (r: Option<seq<string>>)
    ensures r.Some? ==> |r.value| == |ParamNames(toks)|
    ensures r.Some? ==> forall i :: 0 <= i < |r.value| ==> ValidCapture(r.value[i])
    decreases |toks|
  {
    if toks == [] then Some([])
    else match toks[0]
      case Lit(c) =>
        if s != [] && FoldCase(s[0]) == FoldCase(c) then Captures(toks[1..], s[1..]) else None
      case Param(_) =>
        var n := RunLen(s, '/');
        if n == 0 then None
        else match Captures(toks[1..], s[n..])
          case None => None
          case Some(rest) =>
            var caps := [s[..n]] + rest;
            assert forall i :: 1 <= i < |caps| ==> caps[i] == rest[i - 1];
            Some(caps)
  }

  lemma WellFormedTail(toks: seq<Token>)
    requires WellFormed(toks) && toks != []
    ensures WellFormed(toks[1..])
  {
    forall i | 0 <= i < |toks[1..]| && toks[1..][i].Param?
      ensures i + 1 < |toks[1..]| && toks[1..][i + 1] == Lit('/')
    {
      assert toks[i + 1].Param?;
    }
  }

  lemma FoldSlash(x: char)
    ensures FoldCase(x) == '/' <==> x == '/'
  {
  }

  /** Whatever the matcher returns fits. */
  lemma {:induction false} CapturesSound(toks: seq<Token>, s: string)
    requires Captures(toks, s).Some?
    ensures FitsPrefix(toks, s, Captures(toks, s).value)
    decreases |toks|
  {
    if toks != [] {
      match toks[0]
      case Lit(c) => CapturesSound(toks[1..], s[1..]);
      case Param(_) =>
        var n := RunLen(s, '/');
        CapturesSound(toks[1..], s[n..]);
        var caps := Captures(toks, s).value;
        assert caps[0] == s[..n] && caps[1..] == Captures(toks[1..], s[n..]).value;
    }
  }

  /** On a compiled route, every way of fitting is the one the matcher finds. */
  lemma {:induction false} CapturesComplete(toks: seq<Token>, s: string, caps: seq<string>)
    requires WellFormed(toks) && FitsPrefix(toks, s, caps)
    ensures Captures(toks, s) == Some(caps)
    decreases |toks|
  {
    if toks != [] {
      WellFormedTail(toks);
      match toks[0]
      case Lit(c) => CapturesComplete(toks[1..], s[1..], caps);
      case Param(_) =>
        var c := caps[0];
        var rest := s[|c|..];
        assert toks[1] == Lit('/');
        assert rest != [] && FoldCase(rest[0]) == FoldCase('/');
        FoldSlash(rest[0]);
        assert s[|c|] == '/';
        RunLenOfRun(s, '/', |c|);
        CapturesComplete(toks[1..], rest, caps[1..]);
        assert caps == [c] + caps[1..];
    }
  }

  lemma {:induction false} RunLenOfRun(s: string, stop: char, n: nat)
    requires n < |s| && s[n] == stop && forall i :: 0 <= i < n ==> s[i] != stop
    ensures RunLen(s, stop) == n
  {
    if n > 0 {
      assert s[0] != stop;
      RunLenOfRun(s[1..], stop, n - 1);
    }
  }

  /** Fitting the start of `s` does not depend on what follows. */
  lemma {:induction false} FitsExtend(toks: seq<Token>, s: string, x: string, caps: seq<string>)
    requires FitsPrefix(toks, s, caps)
    ensures FitsPrefix(toks, s + x, caps)
    decreases |toks|
  {
    if toks != [] {
      assert (s + x)[1..] == s[1..] + x by { assert s != []; }
      match toks[0]
      case Lit(c) => FitsExtend(toks[1..], s[1..], x, caps);
      case Param(_) =>
        var n := |caps[0]|;
        assert (s + x)[..n] == s[..n];
        assert (s + x)[n..] == s[n..] + x;
        FitsExtend(toks[1..], s[n..], x, caps[1..]);
    }
  }

  /**
   * `topic.match(regex)`: the leftmost offset at or after `from` where the
   * compiled route fits, with its captures.
   */
  function FindMatch(toks: seq<Token>, topic: string, from: nat): (r: Option<(nat, seq<string>)>)
    requires from <= |topic|
    ensures r.Some? ==> from <= r.value.0 <= |topic| && |r.value.1| == |ParamNames(toks)|
    decreases |topic| - from
  {
    match Captures(toks, topic[from..])
    case Some(caps) => Some((from, caps))
    case None => if from == |topic| then None else FindMatch(toks, topic, from + 1)
  }

  /** The offset `FindMatch` reports is the first at or after `from` where the matcher fits. */
  lemma {:induction false} FindMatchSpec(toks: seq<Token>, topic: string, from: nat)
    requires from <= |topic|
    ensures var r := FindMatch(toks, topic, from);
      r.Some? ==> from <= r.value.0 <= |topic| && Captures(toks, topic[r.value.0..]) == Some(r.value.1)
    ensures var r := FindMatch(toks, topic, from);
      r.Some? ==> forall j :: from <= j < r.value.0 ==> Captures(toks, topic[j..]).None?
    ensures FindMatch(toks, topic, from).None? ==> forall j :: from <= j <= |topic| ==> Captures(toks, topic[j..]).None?
    decreases |topic| - from
  {
    if Captures(toks, topic[from..]).None? && from < |topic| {
      FindMatchSpec(toks, topic, from + 1);
    }
  }

  /**
   * `topic.match(regex)` from the start: the leftmost offset where the
   * matcher fits, with its captures, or `None` when it fits nowhere.
   */
  function Match(toks: seq<Token>, topic: string): (r: Option<(nat, seq<string>)>)
    ensures r.Some? ==> r.value.0 <= |topic| && Captures(toks, topic[r.value.0..]) == Some(r.value.1)
    ensures r.Some? ==> forall j :: 0 <= j < r.value.0 ==> Captures(toks, topic[j..]).None?
    ensures r.None? ==> forall j :: 0 <= j <= |topic| ==> Captures(toks, topic[j..]).None?
  {
    FindMatchSpec(toks, topic, 0);
    FindMatch(toks, topic, 0)
  }

  /** Distinct elements. */
  predicate Distinct<T(==)>(xs: seq<T>) {
    forall i, j :: 0 <= i < j < |xs| ==> xs[i] != xs[j]
  }

  /** `match.groups`: each capture under its group's name. */
  function Bind(names: seq<string>, caps: seq<string>): (m: map<string, string>)
    requires |names| == |caps|
    ensures m.Keys == set n | n in names
    ensures Distinct(names) ==> forall i :: 0 <= i < |names| ==> m[names[i]] == caps[i]
  {
    if names == [] then map[]
    else
      var m := Bind(names[1..], caps[1..]);
      DistinctTail(names);
      assert names == [names[0]] + names[1..];
      m[names[0] := caps[0]]
  }

  lemma DistinctTail<T>(xs: seq<T>)
    requires xs != []
    ensures Distinct(xs) ==> Distinct(xs[1..]) && xs[0] !in xs[1..]
  {
    if Distinct(xs) {
      forall i, j | 0 <= i < j < |xs[1..]| ensures xs[1..][i] != xs[1..][j] {
        assert xs[i + 1] != xs[j + 1];
      }
    }
  }

  /** The `params` of the route info, when the route matches the topic. */
  function RouteParams(toks: seq<Token>, topic: string): (r: Option<map<string, string>>)
    ensures r.Some? <==> Match(toks, topic).Some?
    ensures r.Some? ==> r.value.Keys == set n | n in ParamNames(toks)
    ensures r.Some? && Distinct(ParamNames(toks)) ==>
      forall i :: 0 <= i < |ParamNames(toks)| ==> r.value[ParamNames(toks)[i]] == Match(toks, topic).value.1[i]
  {
    match Match(toks, topic)
    case None => None
    case Some((_, caps)) => Some(Bind(ParamNames(toks), caps))
  }

  // ---------------------------------------------------------------- matching: the SimpliSafe scenario

  lemma FitsLit(c: char, toks: seq<Token>, s: string, caps: seq<string>)
    requires FitsPrefix(toks, s, caps)
    ensures FitsPrefix([Lit(c)] + toks, [c] + s, caps)
  {
    assert ([Lit(c)] + toks)[1..] == toks && ([c] + s)[1..] == s;
  }

  lemma {:induction false} FitsLits(a: string, toks: seq<Token>, b: string, caps: seq<string>)
    requires FitsPrefix(toks, b, caps)
    ensures FitsPrefix(Lits(a) + toks, a + b, caps)
  {
    if a == [] {
      assert Lits(a) + toks == toks && a + b == b;
    } else {
      FitsLits(a[1..], toks, b, caps);
      FitsLit(a[0], Lits(a[1..]) + toks, a[1..] + b, caps);
      LitsCons(a, toks, b);
    }
  }

  lemma LitsCons(a: string, toks: seq<Token>, b: string)
    requires a != []
    ensures Lits(a) + toks == [Lit(a[0])] + (Lits(a[1..]) + toks)
    ensures a + b == [a[0]] + (a[1..] + b)
  {
    var h, t := [Lit(a[0])], Lits(a[1..]);
    assert Lits(a) == h + t;
    AppendAssoc(h, t, toks);
    AppendAssoc([a[0]], a[1..], b);
    assert a == [a[0]] + a[1..];
  }


  lemma FitsGroup(name: string, c: string, toks: seq<Token>, b: string, caps: seq<string>)
    requires ValidCapture(c) && FitsPrefix(toks, b, caps)
    ensures FitsPrefix(Group(name) + toks, "/" + c + "/" + b, [c] + caps)
  {
    var t := Group(name) + toks;
    var s := "/" + c + "/" + b;
    assert t[1..][1..][1..] == toks;
    assert s[1..][..|c|] == c;
    assert s[1..][|c|..][1..] == b;
    assert FitsPrefix(t[1..][1..], s[1..][|c|..], caps);
    assert FitsPrefix(t[1..], s[1..], [c] + caps);
  }

  /** A concrete topic for a two-parameter pattern: each parameter replaced by a capture. */
  function TwoParamTopic(head: string, first: string, middle: string, second: string, tail: string): string {
    head + "/" + first + "/" + middle + "/" + second + "/" + tail
  }

  lemma TwoParamTopicShape(head: string, first: string, middle: string, second: string, tail: string)
    ensures TwoParamTopic(head, first, middle, second, tail)
      == head + ("/" + first + "/" + (middle + ("/" + second + "/" + (tail + []))))
  {
  }

  lemma ParamNamesAfterLits(a: string, rest: seq<Token>)
    ensures ParamNames(Lits(a) + rest) == ParamNames(rest)
  {
    RenderLits(a);
    ParamNamesConcat(Lits(a), rest);
  }

  lemma ParamNamesAfterGroup(name: string, rest: seq<Token>)
    ensures ParamNames(Group(name) + rest) == [name] + ParamNames(rest)
  {
    var t := Group(name) + rest;
    assert t[0] == Lit('/') && t[1..][0] == Param(name) && t[1..][1..][0] == Lit('/');
    assert t[1..][1..][1..] == rest;
    assert ParamNames(t) == ParamNames(t[1..]);
    assert ParamNames(t[1..]) == [name] + ParamNames(t[1..][1..]);
    assert ParamNames(t[1..][1..]) == ParamNames(rest);
  }

  lemma TwoParamNames(head: string, first: string, middle: string, second: string, tail: string)
    ensures ParamNames(Lits(head) + Group(first) + Lits(middle) + Group(second) + Lits(tail)) == [first, second]
  {
    Regroup5(Lits(head), Group(first), Lits(middle), Group(second), Lits(tail));
    ParamNamesAfterLits(tail, []);
    assert Lits(tail) + [] == Lits(tail);
    ParamNamesAfterGroup(second, Lits(tail));
    ParamNamesAfterLits(middle, Group(second) + Lits(tail));
    ParamNamesAfterGroup(first, Lits(middle) + (Group(second) + Lits(tail)));
    ParamNamesAfterLits(head, Group(first) + (Lits(middle) + (Group(second) + Lits(tail))));
  }

  lemma FitsTwoParams(head: string, first: string, middle: string, second: string, tail: string, c1: string, c2: string)
    requires ValidCapture(c1) && ValidCapture(c2)
    ensures FitsPrefix(Lits(head) + Group(first) + Lits(middle) + Group(second) + Lits(tail),
                       TwoParamTopic(head, c1, middle, c2, tail), [c1, c2])
  {
    Regroup5(Lits(head), Group(first), Lits(middle), Group(second), Lits(tail));
    TwoParamTopicShape(head, c1, middle, c2, tail);
    assert FitsPrefix([], [], []);
    FitsLits(tail, [], [], []);
    assert Lits(tail) + [] == Lits(tail);
    FitsGroup(second, c2, Lits(tail), tail + [], []);
    assert [c2] + [] == [c2];
    FitsLits(middle, Group(second) + Lits(tail), "/" + c2 + "/" + (tail + []), [c2]);
    FitsGroup(first, c1, Lits(middle) + (Group(second) + Lits(tail)), middle + ("/" + c2 + "/" + (tail + [])), [c2]);
    FitsLits(head, Group(first) + (Lits(middle) + (Group(second) + Lits(tail))),
      "/" + c1 + "/" + (middle + ("/" + c2 + "/" + (tail + []))), [c1, c2]);
  }

  lemma CapturesTwoParams(head: string, first: string, middle: string, second: string, tail: string, c1: string, c2: string)
    requires Plain(head) && Plain(middle) && Plain(tail)
    requires first != [] && '>' !in first && second != [] && '>' !in second
    requires ValidCapture(c1) && ValidCapture(c2)
    ensures Captures(Compile(TwoParamPattern(head, first, middle, second, tail)), TwoParamTopic(head, c1, middle, c2, tail))
      == Some([c1, c2])
    ensures ParamNames(Compile(TwoParamPattern(head, first, middle, second, tail))) == [first, second]
  {
    CompileTwoParams(head, first, middle, second, tail);
    FitsTwoParams(head, first, middle, second, tail, c1, c2);
    CompileWellFormed(TwoParamPattern(head, first, middle, second, tail));
    CapturesComplete(Compile(TwoParamPattern(head, first, middle, second, tail)), TwoParamTopic(head, c1, middle, c2, tail), [c1, c2]);
    TwoParamNames(head, first, middle, second, tail);
  }

  /** A route that fits at the start of a topic matches there. */
  lemma MatchAtStart(toks: seq<Token>, topic: string)
    requires Captures(toks, topic).Some?
    ensures Match(toks, topic) == Some((0, Captures(toks, topic).value))
  {
    assert topic[0..] == topic;
  }

  lemma BindTwo(first: string, second: string, c1: string, c2: string)
    requires first != second
    ensures Bind([first, second], [c1, c2]) == map[first := c1, second := c2]
  {
    var m := Bind([first, second], [c1, c2]);
    assert [first, second][1..] == [second];
    assert m.Keys == {first, second};
  }

  /**
   * Matching a two-parameter route against a topic with slash-free
   * captures at the parameters' places finds them at offset 0 and binds
   * each to its name.
   */
  lemma MatchTwoParams(head: string, first: string, middle: string, second: string, tail: string, c1: string, c2: string)
    requires Plain(head) && Plain(middle) && Plain(tail)
    requires first != [] && '>' !in first && second != [] && '>' !in second && first != second
    requires ValidCapture(c1) && ValidCapture(c2)
    ensures Match(Compile(TwoParamPattern(head, first, middle, second, tail)), TwoParamTopic(head, c1, middle, c2, tail))
      == Some((0, [c1, c2]))
    ensures RouteParams(Compile(TwoParamPattern(head, first, middle, second, tail)), TwoParamTopic(head, c1, middle, c2, tail))
      == Some(map[first := c1, second := c2])
  {
    CapturesTwoParams(head, first, middle, second, tail, c1, c2);
    MatchAtStart(Compile(TwoParamPattern(head, first, middle, second, tail)), TwoParamTopic(head, c1, middle, c2, tail));
    BindTwo(first, second, c1, c2);
  }

  lemma SimpliSafeTopicText()
    ensures TwoParamTopic("simplisafe/uid", "12345", "sid", "54321", "cmd") == "simplisafe/uid/12345/sid/54321/cmd"
  {
  }

  /** The SimpliSafe command route binds the user and system ids of a command topic. */
  lemma SimpliSafeCommandMatch()
    ensures RouteParams(Compile(TwoParamPattern("simplisafe/uid", "userId", "sid", "systemId", "cmd")),
                        TwoParamTopic("simplisafe/uid", "12345", "sid", "54321", "cmd"))
      == Some(map["userId" := "12345", "systemId" := "54321"])
  {
    SimpliSafePlainParts();
    assert ValidCapture("12345") && ValidCapture("54321");
    MatchTwoParams("simplisafe/uid", "userId", "sid", "systemId", "cmd", "12345", "54321");
  }

  /** The same route still fits when text follows: the expression has no `$`. */
  lemma CapturesIgnoreSuffix(toks: seq<Token>, s: string, x: string)
    requires WellFormed(toks) && Captures(toks, s).Some?
    ensures Captures(toks, s + x) == Captures(toks, s)
  {
    CapturesSound(toks, s);
    FitsExtend(toks, s, x, Captures(toks, s).value);
    CapturesComplete(toks, s + x, Captures(toks, s).value);
  }

  /** A route that matches a topic also matches every extension of it, at the same offset or earlier. */
  lemma MatchIgnoresSuffix(toks: seq<Token>, topic: string, x: string)
    requires WellFormed(toks) && Match(toks, topic).Some?
    ensures Match(toks, topic + x).Some? && Match(toks, topic + x).value.0 <= Match(toks, topic).value.0
  {
    var i := Match(toks, topic).value.0;
    FindMatchSpec(toks, topic, 0);
    assert (topic + x)[i..] == topic[i..] + x;
    CapturesIgnoreSuffix(toks, topic[i..], x);
    FindMatchSpec(toks, topic + x, 0);
  }

  // ---------------------------------------------------------------- group names

  predicate IdStart(c: char) {
    'a' <= c <= 'z' || 'A' <= c <= 'Z' || c == '_'
  }

  predicate IdPart(c: char) {
    IdStart(c) || '0' <= c <= '9'
  }

  /**
   * A name `new RegExp` accepts as `(?<name>…)` once `escapeRegExp` has run
   * over it: an identifier. `$` is an identifier character, but the escape
   * turns it into `\$`, which is not.
   */
  predicate ValidGroupName(name: string)
    ensures ValidGroupName(name) ==> '$' !in name && '/' !in name && '>' !in name && name != [] && !('0' <= name[0] <= '9')
  {
    name != [] && IdStart(name[0]) && forall i :: 1 <= i < |name| ==> IdPart(name[i])
  }

  /** `new RegExp` accepts the compiled route: valid and pairwise distinct group names. */
  predicate RegexAccepts(toks: seq<Token>)
    ensures RegexAccepts(toks) <==> (forall n :: Param(n) in toks ==> ValidGroupName(n)) && Distinct(ParamNames(toks))
  {
    ParamNamesAreParams(toks);
    (forall n :: n in ParamNames(toks) ==> ValidGroupName(n)) && Distinct(ParamNames(toks))
  }

  // ---------------------------------------------------------------- error topic

  /** The id the error topic carries: `payload?.id`, when it is a non-empty string. */
  function ErrorId(payload: Option<Command>): Option<string> {
    if payload.Some? && payload.value.id.Some? && payload.value.id.value != [] then payload.value.id else None
  }

  /** The topic `onCommandError` publishes to. */
  function ErrorTopic(topic: string, payload: Option<Command>): (r: string)
    ensures ErrorId(payload).Some? ==> r == topic + "/cid/" + ErrorId(payload).value + "/error"
    ensures ErrorId(payload).None? ==> r == topic + "//error"
    ensures |r| > |topic| && r[..|topic|] == topic
  {
    topic + "/" + (if ErrorId(payload).Some? then "cid/" + ErrorId(payload).value else "") + "/error"
  }

  /** Two commands on the same topic share an error topic exactly when they carry the same id. */
  lemma ErrorTopicIdentifiesCommand(topic: string, p: Option<Command>, q: Option<Command>)
    ensures ErrorTopic(topic, p) == ErrorTopic(topic, q) <==> ErrorId(p) == ErrorId(q)
  {
    var rp, rq := ErrorTopic(topic, p), ErrorTopic(topic, q);
    assert rp[|topic| + 1] == if ErrorId(p).Some? then 'c' else '/';
    assert rq[|topic| + 1] == if ErrorId(q).Some? then 'c' else '/';
    if rp == rq && ErrorId(p).Some? && ErrorId(q).Some? {
      assert rp[|topic| + 5..|rp| - 6] == ErrorId(p).value;
      assert rq[|topic| + 5..|rq| - 6] == ErrorId(q).value;
    }
  }

  // ---------------------------------------------------------------- canonical name

  /** `s.replace(/suffix$/, "")`. */
  function DropSuffix(s: string, suffix: string): (r: string)
    ensures EndsWith(s, suffix) ==> r + suffix == s
    ensures !EndsWith(s, suffix) ==> r == s
  {
    if EndsWith(s, suffix) then s[..|s| - |suffix|] else s
  }

  /** `getCanonicalName`: the class name without a trailing `Integration`, in lower case. */
  function CanonicalName(className: string): (name: string)
    ensures |name| <= |className|
    ensures forall i :: 0 <= i < |name| ==> !('A' <= name[i] <= 'Z')
  {
    ToLower(DropSuffix(className, "Integration"))
  }

  /** An integration class named `<Base>Integration` is known as `<base>` in lower case. */
  lemma CanonicalNameOfIntegrationClass(base: string)
    ensures CanonicalName(base + "Integration") == ToLower(base)
  {
    var s := base + "Integration";
    assert s[|s| - 11..] == "Integration";
    assert s[..|s| - 11] == base;
  }

  /** Canonical names are fixed points: lower case never ends with `Integration`. */
  lemma CanonicalNameIdempotent(className: string)
    ensures CanonicalName(CanonicalName(className)) == CanonicalName(className)
  {
    var n := CanonicalName(className);
    assert |n| >= 11 ==> n[|n| - 11..][0] != 'I';
    assert ToLower(n) == n;
  }

  lemma LuxorCanonicalName()
    ensures CanonicalName("LuxorIntegration") == "luxor"
  {
    var s := "LuxorIntegration";
    assert s[5..] == "Integration" && s[..5] == "Luxor";
    assert DropSuffix(s, "Integration") == "Luxor";
    var r := ToLower("Luxor");
    assert r[0] == 'l' && r[1..] == "uxor";
  }

  // ---------------------------------------------------------------- subscriptions

  /**
   * MQTT topic-filter matching for the filters `route` subscribes with: `+`
   * stands for one whole level, possibly empty; every other character for
   * itself. Those filters contain no `#`.
   */
  predicate FilterMatches(filter: string, topic: string)
    decreases |filter|
  {
    if filter == [] then topic == []
    else if filter[0] == '+' then FilterMatches(filter[1..], topic[RunLen(topic, '/')..])
    else topic != [] && topic[0] == filter[0] && FilterMatches(filter[1..], topic[1..])
  }

  /** The topic a compiled route spells out with `caps` at its captures. */
  function Instance(toks: seq<Token>, caps: seq<string>): string
    requires |caps| == |ParamNames(toks)|
    decreases |toks|
  {
    if toks == [] then []
    else match toks[0]
      case Lit(c) => [c] + Instance(toks[1..], caps)
      case Param(_) => caps[0] + Instance(toks[1..], caps[1..])
  }

  /** Every instance with valid captures fits its route... */
  lemma {:induction false} FitsOwnInstance(toks: seq<Token>, caps: seq<string>)
    requires |caps| == |ParamNames(toks)|
    requires forall i :: 0 <= i < |caps| ==> ValidCapture(caps[i])
    ensures FitsPrefix(toks, Instance(toks, caps), caps)
    decreases |toks|
  {
    if toks != [] {
      var s := Instance(toks, caps);
      match toks[0]
      case Lit(c) =>
        FitsOwnInstance(toks[1..], caps);
        assert s[1..] == Instance(toks[1..], caps);
      case Param(_) =>
        FitsOwnInstance(toks[1..], caps[1..]);
        assert s[..|caps[0]|] == caps[0];
        assert s[|caps[0]|..] == Instance(toks[1..], caps[1..]);
    }
  }

  /** ...so the matcher finds it at offset 0 and returns exactly those captures. */
  lemma InstanceMatches(toks: seq<Token>, caps: seq<string>)
    requires WellFormed(toks) && |caps| == |ParamNames(toks)|
    requires forall i :: 0 <= i < |caps| ==> ValidCapture(caps[i])
    ensures Match(toks, Instance(toks, caps)) == Some((0, caps))
  {
    FitsOwnInstance(toks, caps);
    CapturesComplete(toks, Instance(toks, caps), caps);
    MatchAtStart(toks, Instance(toks, caps));
  }

  /**
   * The subscription `route` makes delivers every topic its matcher is
   * written for, provided the literal text holds no `+`.
   */
  lemma {:induction false} SubscriptionDelivers(toks: seq<Token>, caps: seq<string>)
    requires WellFormed(toks) && |caps| == |ParamNames(toks)|
    requires forall i :: 0 <= i < |caps| ==> ValidCapture(caps[i])
    requires Lit('+') !in toks
    ensures FilterMatches(Render(toks), Instance(toks, caps))
    decreases |toks|
  {
    if toks != [] {
      WellFormedTail(toks);
      assert Lit('+') !in toks[1..];
      var f, s := Render(toks), Instance(toks, caps);
      match toks[0]
      case Lit(c) =>
        SubscriptionDelivers(toks[1..], caps);
        assert f[1..] == Render(toks[1..]) && s[1..] == Instance(toks[1..], caps);
      case Param(_) =>
        SubscriptionDelivers(toks[1..], caps[1..]);
        var c := caps[0];
        assert toks[1] == Lit('/');
        assert s[|c|..] == Instance(toks[1..], caps[1..]);
        assert s[|c|] == '/';
        assert forall i :: 0 <= i < |c| ==> s[i] == c[i];
        RunLenOfRun(s, '/', |c|);
        assert f[1..] == Render(toks[1..]);
    }
  }

  lemma {:induction false} CountSkipsRun(t: string, n: nat)
    requires n <= |t| && forall i :: 0 <= i < n ==> t[i] != '/'
    ensures CountChar(t, '/') == CountChar(t[n..], '/')
  {
    if n > 0 {
      assert t[1..][n - 1..] == t[n..];
      CountSkipsRun(t[1..], n - 1);
    }
  }

  /** A filter only matches topics with as many levels as it has. */
  lemma {:induction false} FilterKeepsLevels(filter: string, topic: string)
    ensures FilterMatches(filter, topic) ==> CountChar(topic, '/') == CountChar(filter, '/')
    decreases |filter|
  {
    if filter != [] {
      if filter[0] == '+' {
        FilterKeepsLevels(filter[1..], topic[RunLen(topic, '/')..]);
        CountSkipsRun(topic, RunLen(topic, '/'));
      } else if topic != [] {
        FilterKeepsLevels(filter[1..], topic[1..]);
      }
    }
  }

  /**
   * The error report of a command never reaches the subscription of the
   * route it answers, so an integration does not hear its own errors.
   */
  lemma ErrorTopicEscapesFilter(filter: string, topic: string, payload: Option<Command>)
    ensures FilterMatches(filter, topic) ==> !FilterMatches(filter, ErrorTopic(topic, payload))
  {
    var e := ErrorTopic(topic, payload);
    var mid := if ErrorId(payload).Some? then "cid/" + ErrorId(payload).value else "";
    assert e == topic + ("/" + mid + "/error");
    CountCharConcat(topic, "/" + mid + "/error", '/');
    CountCharConcat("/" + mid, "/error", '/');
    assert ("/" + mid + "/error")[0] == '/';
    FilterKeepsLevels(filter, topic);
    FilterKeepsLevels(filter, e);
  }

  /**
   * A `+` level may be empty but a capture may not: the subscription of a
   * one-parameter route delivers `//`, which its matcher rejects, so
   * `onMessage` finds no route for it.
   */
  lemma EmptyLevelDeliveredButUnmatched(name: string)
    ensures FilterMatches(Render(Group(name)), "//")
    ensures Match(Group(name), "//").None?
  {
    var g := Group(name);
    assert g[1..] == [Param(name), Lit('/')] && g[1..][1..] == [Lit('/')];
    assert Render(g) == "/+/" by { RenderParamGroup(name); }
    var f := "/+/";
    assert f[1..] == "+/" && f[1..][1..] == "/";
    assert RunLen("/", '/') == 0;
    assert FilterMatches("/", "/") by { assert "/"[1..] == []; }
    assert "//"[1..] == "/" && "/"[0..] == "/";
    assert Captures(g, "//"[0..]).None? by {
      assert "//"[0..] == "//";
      assert Captures(g[1..], "/").None?;
    }
    assert Captures(g, "//"[1..]).None? by {
      assert Captures(g[1..], "/"[1..]).None?;
    }
    assert Captures(g, "//"[2..]).None? by { assert "//"[2..] == []; }
    assert FindMatch(g, "//", 2).None?;
    assert FindMatch(g, "//", 1).None?;
  }
}

=== FILE: wrappers.dfy ===
/** Option and Result: the model's stand-ins for `undefined` and for thrown errors. */
module Wrappers {

  datatype Option<+T> = None | Some(value: T)

  datatype Result<+R, +E> = Success(value: R) | Failure(error: E)
}
